=== FILE: README.md ===
# Chess board state machine

This project models the core of a terminal chess game written in Ruby. It covers two files:

- **`Board`** (lib/board.rb) holds an 8×8 grid of piece objects. It also holds the set of pieces in play, per-faction capture lists, the cached cell of each king and the faction that moved last. Every change of position goes through one mutation path, `set`, which runs in four steps:
  1. capture accounting (ordinary or en passant);
  2. placement;
  3. pawn promotion;
  4. castling.

  `move` is two `set`s: it lifts the piece, sets it on the destination, then clears every pawn's en-passant cell. The safety and end-of-game queries `simulate_move`, `no_moves?`, `available_moves`, `checkmate?` and `stalemate?` play moves on a `copy` of the board and ask `checked?`. `dead_position?` only counts the material left in play.
- **`Piece`** (lib/pieces/piece.rb) is the base class of every piece. Its constructor places the piece on the board through `set`. It also provides:
  - `move`, `proceed`, `safe_moves` and `copy_to`;
  - the base candidate generator `find_legal_moves`, which offers all 64 cells;
  - the cell queries `friendly?` and `enemy?`.

The model has two layers.

- **The value layer.** `BoardModel.BoardState` is the board as a value. Pieces are ids into a `store` map, which gives each Ruby piece object its identity. `inPlay` is the insertion-ordered `pieces_in_play`. `captures`, `kings`, `previousTurn` and `hasGame` (whether a game is attached) are the other fields. Every board operation is a function of the old value.
- **The in-place layer.** `Boards.Board` is a class whose grid is an `array2`. Its methods update the fields in place, and each one ensures that the new `State()` is the value-layer function applied to the old one. `PieceMoves` runs the piece operations against a live `Board`.

The candidate moves of the piece variants (`show_legal_moves`) are a parameter `Generator`. The base generator, `BaseGenerator`, offers every cell. The answer typed at the promotion prompt is a `string` parameter.

**Properties proved:**
- **Consistency.** `BoardModel.Consistent` says that every occupied cell holds a live piece standing there, and every live piece stands on its own cell. It is kept by `place` of nil or of a piece that is not live, by `set` of a piece that is not live, by piece construction, and by `move`, `proceed` and `copy`.
- **Each `set` branch.** The lemmas give the exact effect of:
  - ordinary captures;
  - en-passant captures;
  - promotion (exactly one new piece, never a Pawn);
  - castling (the rook moves from file 8 to 6 or from 1 to 4).
- **Deep copy.** `copy` rebuilds every live piece on its own cell with the same class, faction and `moved` flag, leaves every other cell empty, starts with empty capture lists and caches the cell of each faction's only live King. This holds when no live Pawn stands on rank 1 or 8.
- **King cache.** `KingInvariant.KingsCached` says that every live King's faction is cached at that King's cell and that no faction has two live Kings. `set`, piece construction, `move`, `proceed` and `copy` keep it, so `checked?` reads the real king cell.
- **Clean-up after `move`.** No pawn in play keeps an en-passant cell.
- **`safe_moves`.** It returns the ordered sublist of the candidates that `simulate_move` accepts.
- **Castling.** Castling is never judged safe while the king is in check.
- **End of game.** Checkmate and stalemate exclude each other. Together they are exactly `no_moves?`, which holds exactly when `available_moves` is empty.
- **Square colours.** The square-colour test is characterised exactly, including its literal behaviour.

## Model

| member | source | states |
|---|---|---|
| Pieces.FindLegalMoves | lib/pieces/piece.rb:45-50 | the list built is [1,1], [1,2], …, [8,8], the 64 pairs in `repeated_permutation` order |
| Pieces.AllCellsExactlyTheBoard | lib/pieces/piece.rb:45-50 | a cell is offered by the base generator exactly when it lies on the board |
| Pieces.AllCellsSorted | lib/pieces/piece.rb:45-50 | the base candidate list is strictly increasing in lexicographic order |
| Pieces.AllCellsDistinct | lib/pieces/piece.rb:45-50 | the base candidate list holds no cell twice |
| BoardModel.NewBoard | lib/board.rb:6-13 | a new board is well formed and every cell is empty |
| BoardModel.UpdatePieces | lib/board.rb:99-102 | afterwards the pieces in play are the old ones plus the placed piece, minus the old occupant of the cell (so a piece re-placed on its own cell drops out); they stay duplicate-free; nothing else changes |
| BoardModel.Reposition | lib/board.rb:94 | only the placed piece's position changes, to [x, y] |
| BoardModel.CacheKing | lib/board.rb:95 | the king cache of the faction moves to [x, y] exactly when a King is placed |
| BoardModel.Place | lib/board.rb:92-97 | the cell holds the placed piece and no other cell changes; the placed piece's position becomes [x, y]; the pieces in play change as in `update_pieces`; the king cache changes only for a King; the capture lists and the turn are kept |
| BoardModel.OrdinaryCapture | lib/board.rb:82-84 | with a piece and an occupied cell, exactly the occupant is appended to the mover's faction list and the other list is kept; otherwise the board is unchanged |
| BoardModel.EnPassantCapture | lib/board.rb:77-80 | whatever stands on the capture cell (nil included) is appended to the mover's faction list; the capture cell is then empty and its occupant leaves play; no other cell changes |
| BoardModel.UpdateCaptures | lib/board.rb:71-75 | without an en-passant move it is exactly the ordinary capture; it keeps the board well formed |
| BoardModel.HandlePromotion | lib/board.rb:34-39 | without a promotion the board is unchanged; with one, only the promotion cell changes and it is occupied afterwards; the capture lists are kept |
| BoardModel.PromoteTo | lib/board.rb:41-46 | only the cell [x, y] changes and it is occupied afterwards; on an empty cell no capture is recorded |
| BoardModel.NewPiece | lib/pieces/piece.rb:5-12 | construction allocates the next id with the given class, faction and `moved` flag and sets it on its cell; the cell is occupied afterwards and no other cell changes |
| BoardModel.MoveRook | lib/board.rb:65-69 | the rook's destination holds what stood on its home cell; the home cell is empty; no other cell changes |
| BoardModel.HandleCastling | lib/board.rb:58-63 | without castling the board is unchanged; the capture lists are always kept |
| BoardModel.Set | lib/board.rb:19-24 | without en passant the capture lists are those of an ordinary capture; for a piece, without en passant or castling, only [x, y] changes and it is occupied afterwards |
| BoardModel.ClearEnPassant | lib/board.rb:86-90 | exactly the Pawns among the ids lose their en-passant cell; every other piece is kept |
| BoardModel.DisableEnPassant | lib/board.rb:86-90 | every Pawn in play loses its en-passant cell; all other pieces and fields are kept |
| BoardModel.RecordTurn | lib/board.rb:28 | the previous turn becomes the mover's faction and nothing else changes |
| BoardModel.CopyTo | lib/pieces/piece.rb:41-43 | the target's cell at the piece's position is occupied afterwards and no other cell changes |
| BoardModel.CopyPiecesTo | lib/board.rb:111-114 | a cell of the target is occupied afterwards exactly when it was before or a copied piece stands there |
| BoardModel.Copy | lib/board.rb:104-109 | the copy has no game and the same previous turn; a cell of the copy is occupied exactly when a live piece of the original stands there |
| BoardModel.SelectFaction | lib/board.rb:143-149 | `enemies`/`friendlies`: the pieces in play whose faction differs from / equals the given one |
| BoardModel.Get | lib/board.rb:15-17 | reads `grid[x - 1][y - 1]`; its relation to the pieces is `QueryProps.OccupiedCellsExact` and `BoardInvariant`'s consistency |
| BoardModel.EnPassantQ | lib/board.rb:131-133 | a Pawn set onto its own en-passant cell; its effect is `BoardProps.SetEnPassant` |
| BoardModel.CastlingQ | lib/board.rb:127-129 | a King set onto one of its castling cells; its effect is `BoardProps.SetCastling` |
| BoardModel.PawnPromotionQ | lib/board.rb:48-50 | a Pawn set on rank 1 or 8; its effect is `BoardProps.HandlePromotionEffect` |
| BoardModel.ChoosePromotion | lib/board.rb:52-56 | nil without a game, otherwise the typed answer |
| BoardModel.PromotionKind | lib/board.rb:41-46 | Rook, Bishop or Knight for the answers r, b, n and Queen otherwise; never a Pawn or a King (`BoardProps.PromotionKindNotPawn`, `KingInvariant.PromotionKindNotKing`) |
| BoardModel.Enemies | lib/board.rb:143-145 | exactly the pieces in play of the other faction |
| BoardModel.Friendlies | lib/board.rb:147-149 | exactly the pieces in play of the given faction |
| BoardModel.EnemyMoves | lib/board.rb:151-153 | the union of the enemies' raw candidates; characterised by `QueryProps.MovesOfIff` |
| BoardModel.Checked | lib/board.rb:208-210 | the cached king cell is among the enemy candidates; characterised by `QueryProps.CheckedIff` |
| BoardModel.Simulation | lib/board.rb:121-125 | the mover is not in check after the move is played on a copy; the copy is characterised by `CopyProps.CopyPieces` and `CopyProps.CopyKings` |
| BoardModel.SimulateCastling | lib/board.rb:135-141 | not in check now, nor after passing the middle cell, nor at the destination; stated by `QueryProps.CastlingSafety` |
| BoardModel.SimulateMove | lib/board.rb:116-119 | dispatches on `castling?`; stated by `QueryProps.CastlingSafety` and `QueryProps.SafeMovesSpec` |
| BoardModel.SafeMoves | lib/pieces/piece.rb:35-39 | the candidates that pass `simulate_move`, in order; stated by `QueryProps.SafeMovesSpec` |
| BoardModel.Friendly | lib/pieces/piece.rb:52-55 | the cell holds a piece of the same faction; stated with `enemy?` by `QueryProps.FriendlyEnemyExclusive` |
| BoardModel.Enemy | lib/pieces/piece.rb:57-60 | the cell holds a piece of the other faction; stated with `friendly?` by `QueryProps.FriendlyEnemyExclusive` |
| BoardModel.Move | lib/board.rb:26-32 | records the mover's faction, lifts the piece, sets it on the destination and clears every pawn's en-passant cell; the result is well formed, extends the old board and keeps `hasGame`; its effects are `BoardProps.MoveEffect`, `MoveInPlay`, `MoveClearsEnPassant` and `MoveCapturesGrow` |
| BoardModel.MarkMoved | lib/pieces/piece.rb:26 | sets the piece's `moved` flag; stated by `QueryProps.ProceedMarksMoved` |
| BoardModel.Proceed | lib/pieces/piece.rb:25-28 | marks the piece moved, then moves it from its own cell; the result is well formed |
| BoardModel.NoMoves | lib/board.rb:159-164 | no friendly piece has a safe move; stated by `QueryProps.NoMovesIffNothingAvailable` |
| BoardModel.AvailableMoves | lib/board.rb:166-173 | the positions of friendly pieces with safe moves, to those moves; stated by `QueryProps.AvailableMovesSpec` |
| BoardModel.Checkmate | lib/board.rb:175-177 | no moves and in check; stated by `QueryProps.CheckmateStalemateExclusive` |
| BoardModel.Stalemate | lib/board.rb:179-181 | no moves and not in check; stated by `QueryProps.CheckmateStalemateExclusive` |
| BoardModel.KingVsKingAndBishopOrKnight | lib/board.rb:203-206 | at most three pieces, all kings, bishops or knights; part of `QueryProps.DeadPositionIff` |
| BoardModel.AllKingsAndBishops | lib/board.rb:191-193 | only kings and bishops in play; part of `QueryProps.DeadPositionIff` |
| BoardModel.AllBishopsOnSameSquareColour | lib/board.rb:195-201 | the `\|\|=` colour test over the live bishops; stated by `QueryProps.SameColourFromIff` |
| BoardModel.KingsAndBishopsOfSameColourSquare | lib/board.rb:187-189 | kings and bishops only, passing the colour test; part of `QueryProps.DeadPositionIff` |
| BoardModel.DeadPosition | lib/board.rb:183-185 | either material test holds; stated by `QueryProps.DeadPositionIff` |
| BoardModel.OccupiedCells | lib/board.rb:212-214 | the positions of the pieces in play; stated by `QueryProps.OccupiedCellsExact` |
| BoardProps.SetNil | lib/board.rb:19-24 | setting nil is just placing nil: no capture, promotion or castling |
| BoardProps.SetPlain | lib/board.rb:19-24 | without en passant, promotion or castling, `set` is an ordinary capture followed by `place` |
| BoardProps.SetCapturesOccupant | lib/board.rb:82-84 | setting a piece onto an occupied cell appends exactly the old occupant to the mover's faction list and keeps the other list |
| BoardProps.SetCapturesNothing | lib/board.rb:82-84 | setting nil, or setting onto an empty cell, leaves every capture list unchanged |
| BoardProps.MoveCapturesGrow | lib/board.rb:26-32 | capture lists only grow under `move`: each old list is a prefix of the new one |
| BoardProps.SetEnPassant | lib/board.rb:72-80 | an en-passant `set` appends the piece on the capture cell to the mover's list, leaves the Pawn on [x, y] and empties the capture cell; the capture-cell occupant (and the destination's, if different) leaves play and the Pawn is in play |
| BoardProps.NewPieceEffect | lib/pieces/piece.rb:5-12 | a constructed piece gets the next id, is a fresh piece with the given fields, stands on [x, y], enters play and evicts the old occupant; no other cell changes |
| BoardProps.PromotionKindNotPawn | lib/board.rb:41-46 | promotion never constructs a Pawn |
| BoardProps.HandlePromotionEffect | lib/board.rb:34-39 | a Pawn on rank 1 or 8 is replaced on its cell by one new piece of its faction, of the selected class (Queen by default); the Pawn leaves play |
| BoardProps.PromotionEffect | lib/board.rb:19-24 | setting a Pawn on rank 1 or 8 leaves a new piece of the selected class and of the Pawn's faction on that cell; exactly one piece is created |
| BoardProps.HandleCastlingEffect | lib/board.rb:58-69 | castling to file 7 moves the rook from file 8 to 6, and to file 3 from 1 to 4; the home cell becomes empty and no other cell changes; the rook stays in play, the piece on its destination leaves play, and the capture lists are kept |
| BoardProps.SetCastling | lib/board.rb:19-24 | setting a King onto a castling cell leaves the King there and relocates the rook; no cell other than [x, y], the rook's home and its destination changes; the occupants of [x, y] and of the rook's destination leave play, the King and the rook are in play |
| BoardProps.SetCapturesPiece | lib/board.rb:71-84 | setting a piece without en passant (castling included) appends the old occupant, if any, to the setter's faction list and keeps the other list |
| BoardProps.OrdinaryCaptureLists | lib/board.rb:82-84 | `ordinary_capture` of a piece appends the occupant, if any, to its faction's list and keeps the other list |
| BoardProps.MoveEffect | lib/board.rb:26-32 | a plain move between two cells empties the origin, puts the piece on the destination at its new position, records its faction as the previous turn, and changes no other cell |
| BoardProps.MoveInPlay | lib/board.rb:26-32 | after a plain move the pieces in play are the old ones minus the piece captured on the destination |
| BoardProps.MoveClearsEnPassant | lib/board.rb:26-32 | after any move no Pawn in play has an en-passant cell |
| BoardInvariant.PlaceConsistent | lib/board.rb:92-97 | placing nil or a piece that is not live keeps the grid and the pieces in play consistent |
| BoardInvariant.UpdateCapturesConsistent | lib/board.rb:71-80 | capture accounting keeps consistency |
| BoardInvariant.MoveRookConsistent | lib/board.rb:65-69 | moving the rook keeps consistency |
| BoardInvariant.SetConsistent | lib/board.rb:19-24 | `set` of a piece that is not live keeps consistency |
| BoardInvariant.HandlePromotionConsistent | lib/board.rb:34-46 | promotion keeps consistency |
| BoardInvariant.NewPieceConsistent | lib/pieces/piece.rb:5-12 | constructing a piece keeps consistency |
| BoardInvariant.DisableEnPassantConsistent | lib/board.rb:86-90 | clearing en-passant cells keeps consistency |
| BoardInvariant.MoveConsistent | lib/board.rb:26-32 | `move` keeps consistency |
| BoardInvariant.ProceedConsistent | lib/pieces/piece.rb:25-28 | `proceed` keeps consistency |
| BoardInvariant.CopyPiecesToConsistent | lib/board.rb:111-114 | copying pieces onto a consistent board keeps it consistent |
| BoardInvariant.CopyConsistent | lib/board.rb:104-109 | the copy of any board is consistent |
| CopyProps.CopyToStep | lib/pieces/piece.rb:41-43 | copying a piece onto an empty cell puts a new id there whose piece has the same class, faction, position and `moved` flag; the capture lists are kept |
| CopyProps.CopyPiecesToStore | lib/board.rb:111-114 | every piece already in the target keeps its identity |
| CopyProps.CopyPiecesToOthers | lib/board.rb:111-114 | cells that no copied piece stands on are unchanged |
| CopyProps.CopyPiecesToCaptures | lib/board.rb:111-114 | the target's capture lists are unchanged |
| CopyProps.CopyPiecesToPieces | lib/board.rb:111-114 | each copied piece's position holds a piece with its class, faction, position and `moved` flag |
| CopyProps.LastKing | lib/board.rb:92-97 | the last King of a faction among the listed ids; none exactly when no listed piece is such a King |
| CopyProps.CopyPiecesToKings | lib/board.rb:92-97 | after copying, a faction's cached cell is that of the last King of the faction copied, or the old entry when none was copied |
| CopyProps.CopyPieces | lib/board.rb:104-114 | the copy is a deep copy: each live piece's cell holds a new piece with its class, faction, position and `moved` flag; every other cell is empty; the capture lists are empty |
| CopyProps.CopyKings | lib/board.rb:104-114 | every cached faction of the copy is at a live King's cell, every faction with a live King is cached, and a faction's only live King is cached at its cell |
| KingInvariant.PlaceKings | lib/board.rb:92-97 | `place` keeps the king cache right, unless it would give a faction a second live King |
| KingInvariant.UpdateCapturesKings | lib/board.rb:71-80 | capture accounting keeps the king cache right |
| KingInvariant.MoveRookKings | lib/board.rb:65-69 | moving the rook keeps the king cache right |
| KingInvariant.HandleCastlingKings | lib/board.rb:58-63 | castling keeps the king cache right |
| KingInvariant.SetKings | lib/board.rb:19-24 | `set` of a piece that is not live, and not a second King, keeps the king cache right |
| KingInvariant.PromotionKindNotKing | lib/board.rb:41-46 | promotion never constructs a King |
| KingInvariant.HandlePromotionKings | lib/board.rb:34-39 | promotion keeps the king cache right |
| KingInvariant.NewPieceKings | lib/pieces/piece.rb:5-12 | constructing a piece keeps the king cache right, unless it is a second King for its faction |
| KingInvariant.DisableEnPassantKings | lib/board.rb:86-90 | clearing en-passant cells keeps the king cache right |
| KingInvariant.MoveKings | lib/board.rb:26-32 | `move` keeps the king cache right |
| KingInvariant.ProceedKings | lib/pieces/piece.rb:25-28 | `proceed` keeps the king cache right |
| KingInvariant.CopyKingsCached | lib/board.rb:104-109 | the copy of a board whose king cache is right has a right king cache |
| QueryProps.MovesOfIff | lib/board.rb:151-153 | a cell is in the union of candidates exactly when some listed piece offers it |
| QueryProps.CheckedIff | lib/board.rb:208-210 | a faction is in check exactly when its king cell is cached and some live enemy offers that cell |
| QueryProps.BaseGeneratorChecked | lib/board.rb:208-210 | with the base generator a faction is in check exactly when its king cell is cached, on the board, and some live enemy exists |
| QueryProps.SelectSpec | lib/pieces/piece.rb:35-39 | `select` returns an ordered sublist of the candidates holding exactly those that pass the block |
| QueryProps.SelectCount | lib/pieces/piece.rb:35-39 | `select` keeps every occurrence of a passing candidate and no occurrence of a failing one |
| QueryProps.SafeMovesSpec | lib/pieces/piece.rb:35-39 | the safe moves are an ordered sublist of the candidates, and a cell is safe exactly when it is a candidate and `simulate_move` accepts it |
| QueryProps.CastlingSafety | lib/board.rb:135-141 | a castling move is safe exactly when the king is not in check now and neither the passed cell nor the destination leaves it in check; so castling out of check is never safe |
| QueryProps.AvailableFromSpec | lib/board.rb:166-173 | the fold's keys are the old keys plus the positions of pieces with non-empty lists, and each new entry is such a piece's list |
| QueryProps.AvailableMovesSpec | lib/board.rb:166-173 | each key is the position of a friendly live piece whose safe-move list is the value and is non-empty; every friendly piece with a safe move is a key |
| QueryProps.NoMovesIffNothingAvailable | lib/board.rb:159-173 | `no_moves?` holds exactly when `available_moves` is empty |
| QueryProps.CheckmateStalemateExclusive | lib/board.rb:175-181 | checkmate and stalemate never both hold, and one of them holds exactly when there are no moves |
| QueryProps.SameColourFromTrue | lib/board.rb:195-201 | once the remembered colour is true (an even `x + y`, a dark square such as a1), the test holds exactly when every later bishop stands on an even-sum square |
| QueryProps.SameColourFromIff | lib/board.rb:195-201 | from a nil or false (odd-sum, light) remembered colour, the test holds exactly when no bishop on an odd-sum (light) square follows one on an even-sum (dark) square |
| QueryProps.SameColourSufficient | lib/board.rb:195-201 | bishops all on one colour pass the test |
| QueryProps.SameColourQuirk | lib/board.rb:195-201 | the `\|\|=` update lets an odd-sum (light) bishop followed by an even-sum (dark) one pass, but not even-sum then odd-sum |
| QueryProps.BishopColoursMembers | lib/board.rb:197 | a colour occurs among the bishop colours exactly when some listed bishop stands on it |
| QueryProps.AllBishopsSameColourSufficient | lib/board.rb:195-201 | when every live bishop stands on the same colour, `all_bishops_on_same_square_color?` holds |
| QueryProps.DeadPositionIff | lib/board.rb:183-206 | a dead position is exactly: at most three pieces, all kings, bishops or knights; or only kings and bishops with no odd-sum (light-square) bishop following an even-sum (dark-square) one |
| QueryProps.FriendlyEnemyExclusive | lib/pieces/piece.rb:52-60 | on an empty cell neither `friendly?` nor `enemy?` holds; on an occupied cell exactly one does |
| QueryProps.OccupiedCellsExact | lib/board.rb:212-214 | on a consistent board the occupied cells are exactly the cells holding a piece |
| QueryProps.CopyToEffect | lib/pieces/piece.rb:41-43 | `copy_to` constructs a fresh piece with the same class, faction, position and `moved` flag, standing on that position |
| QueryProps.ProceedMarksMoved | lib/pieces/piece.rb:25-28 | after `proceed` the piece is marked as moved |
| Boards.Board.constructor | lib/board.rb:6-13 | a new in-place board is the empty board value |
| Boards.Board.Get | lib/board.rb:15-17 | reads `grid[x - 1][y - 1]` of the current state |
| Boards.Board.UpdatePieces | lib/board.rb:99-102 | the new state is the value-layer `update_pieces` of the old one |
| Boards.Board.Place | lib/board.rb:92-97 | the new state is the value-layer `place` of the old one; the board stays valid |
| Boards.Board.OrdinaryCapture | lib/board.rb:82-84 | the new state is the value-layer ordinary capture of the old one |
| Boards.Board.EnPassantCapture | lib/board.rb:77-80 | the new state is the value-layer en-passant capture of the old one |
| Boards.Board.UpdateCaptures | lib/board.rb:71-75 | the new state is the value-layer `update_captures` of the old one |
| Boards.Board.ChoosePromotion | lib/board.rb:52-56 | nil without a game, otherwise the typed answer |
| Boards.Board.HandlePromotion | lib/board.rb:34-39 | the new state is the value-layer `handle_promotion` of the old one |
| Boards.Board.PromoteTo | lib/board.rb:41-46 | the new state is the value-layer `promote_to` of the old one |
| Boards.Board.NewPiece | lib/pieces/piece.rb:5-12 | the new state and the new id are those of the value-layer construction |
| Boards.Board.MoveRook | lib/board.rb:65-69 | the new state is the value-layer `move_rook` of the old one |
| Boards.Board.HandleCastling | lib/board.rb:58-63 | the new state is the value-layer `handle_castling` of the old one |
| Boards.Board.Set | lib/board.rb:19-24 | the new state is the value-layer `set` of the old one |
| Boards.Board.DisableEnPassant | lib/board.rb:86-90 | the loop over the pieces in play leaves the value-layer `disable_en_passant` of the old state |
| Boards.Board.Move | lib/board.rb:26-32 | the new state is the value-layer `move` of the old one |
| Boards.Board.CopyPiecesTo | lib/board.rb:111-114 | the loop leaves the target in the value-layer `copy_pieces_to` of its old state |
| Boards.Board.Copy | lib/board.rb:104-109 | a fresh board whose state is the value-layer copy |
| Boards.Board.Simulation | lib/board.rb:121-125 | the answer is the value-layer `simulation` of the state at entry |
| Boards.Board.SimulateCastling | lib/board.rb:135-141 | the answer is the value-layer `simulate_castling` of the state at entry |
| Boards.Board.SimulateMove | lib/board.rb:116-119 | the answer is the value-layer `simulate_move` of the state at entry |
| Boards.CopyTo | lib/pieces/piece.rb:41-43 | the target's new state is the value-layer `copy_to` |
| PieceMoves.SafeMoves | lib/pieces/piece.rb:35-39 | the loop keeps, in order, exactly the candidates that pass `simulate_move` (the value-layer `select`) |
| PieceMoves.Proceed | lib/pieces/piece.rb:25-28 | the new state is the value-layer `proceed`: mark moved, then move from the piece's own cell |
| PieceMoves.Move | lib/pieces/piece.rb:18-23 | succeeds exactly when the cell is a candidate and a safe move; on failure the board is unchanged, on success it is `proceed`; the board stays consistent |

## Left out

- Rendering (lib/board.rb:216-252) is console output and is not modelled.
- `choose_promotion` prints a prompt and reads the active player's input. The model takes the typed answer as a parameter.
- Move geometry of the piece variants (Pawn, Knight, Bishop, Rook, Queen, King) is not part of this model. Their `show_legal_moves` is the `Generator` parameter, and only the base generator is concrete. Whatever code sets the en-passant and castling fields is not part of this model either. A constructed piece starts with those fields empty.
- The `legal_moves` cache field of a piece is not a field in the model. `PieceMoves.SafeMoves` takes it as a parameter, and `PieceMoves.Move` fills it from the generator.
- `friendly_moves` (lib/board.rb:155-157) is not modelled; no operation of the core calls it.
- `moved?` (lib/pieces/piece.rb:14-16) is the `moved` field of `Pieces.Piece`.
- The `game` back-reference is reduced to `hasGame`, because the board only tests it for nil.
- Ruby object identity is modelled by piece ids. Captured pieces stay in `store`.
- Indexing outside the board is excluded by `requires InBounds`. In Ruby, `get` with x or y equal to 0 reads the last column or row, because a negative index wraps around. `get` with y = 9 reads nil. `get` with x = 9 raises NoMethodError on nil. `place` with y = 9 grows the row. The model does not reproduce any of these.
- Square colour uses Ruby's `even?` on `x + y`, which is Dafny's `% 2 == 0`, since cells are positive.
- `no_moves?` returns the friendly array (truthy) or `false`. The model keeps only its truth value.
- BoardProps.NewPieceEffect: excludes a Pawn constructed on rank 1 or 8, which promotes at once. `BoardProps.PromotionEffect` covers that case.
- QueryProps.CopyToEffect: excludes a Pawn copied on rank 1 or 8, for the same reason.
- BoardProps.SetEnPassant: excludes en-passant destinations on rank 1 or 8. A Pawn cannot reach them by en passant, but the model does not derive that from the variant geometry.
- BoardProps.MoveEffect: covers plain moves only, without en passant, castling, promotion or a move onto the same cell. For the other cases the effect of the destination `set` is stated by `SetEnPassant`, `SetCastling` and `PromotionEffect`, but no lemma composes it with the lift from the origin.
- BoardProps.MoveInPlay: covers plain moves only. The change to the pieces in play of an en-passant or castling `set` is stated by `SetEnPassant` and `SetCastling`, and for a promotion `HandlePromotionEffect` states only that the new piece enters play and the Pawn leaves it. No lemma states it for the whole `move` in those cases.
- BoardModel.Move: requires a piece on the origin cell. On an empty origin, lib/board.rb:28 raises NoMethodError, and the model does not represent the exception.
- Boards.Board.Move: requires a piece on the origin cell, for the same reason.
- BoardModel.WellFormed: requires every piece with an en-passant cell to carry an on-board en-passant capture cell. Without one, `get(*nil)` at lib/board.rb:78 raises ArgumentError, and the model does not represent the exception.
- PieceMoves.Move: requires the piece to be in play. A captured piece has no cell on the board, and the model does not follow what its Ruby object would do.
- PieceMoves.Proceed: requires the piece to be in play, for the same reason.
- BoardModel.Proceed: requires a consistent board and the piece in play, for the same reason.
- KingInvariant.SetKings: excludes setting a second live King of a faction. The cache then holds only the later King's cell, so no invariant of this kind holds.
- KingInvariant.CopyKingsCached: excludes a live Pawn on rank 1 or 8, which the copy would promote.
- CopyProps.CopyPieces: excludes a live Pawn on rank 1 or 8, for the same reason.
- CopyProps.CopyKings: excludes a live Pawn on rank 1 or 8, for the same reason.

=== FILE: board.dfy ===
/**
 * The `Board` object of lib/board.rb with its state updated in place: the
 * 8x8 grid is an array, the other attributes are fields the methods
 * reassign. Every method is proved to leave exactly the state the
 * functional model of BoardModel prescribes, so the properties proved
 * there hold of the object.
 */
module Boards {
  import opened Pieces
  import BoardModel
  import BoardProps

  /** The grid array read as rows of cells: `GridOf(g)[x - 1][y - 1]` is `g[x - 1, y - 1]`. */
  function GridOf(g: array2<Option<PieceId>>): (r: BoardModel.Grid)
    requires g.Length0 == 8 && g.Length1 == 8
    reads g
    ensures BoardModel.GridShape(r)
    ensures forall i, j :: 0 <= i < 8 && 0 <= j < 8 ==> r[i][j] == g[i, j]
  {
    seq(8, i requires 0 <= i < 8 reads g => seq(8, j requires 0 <= j < 8 reads g => g[i, j]))
  }

  /** A grid that differs from `g0` in cell [x, y] only, where it holds `p`. */
  lemma GridUpdate(g0: BoardModel.Grid, g1: BoardModel.Grid, x: int, y: int, p: Option<PieceId>)
    requires BoardModel.GridShape(g0) && BoardModel.GridShape(g1) && InBounds((x, y))
    requires forall i, j :: 0 <= i < 8 && 0 <= j < 8 ==> g1[i][j] == if (i, j) == (x - 1, y - 1) then p else g0[i][j]
    ensures g1 == g0[x - 1 := g0[x - 1][y - 1 := p]]
  {
    forall i | 0 <= i < 8 ensures g1[i] == g0[x - 1 := g0[x - 1][y - 1 := p]][i] {
      if i == x - 1 {
        assert forall j :: 0 <= j < 8 ==> g1[i][j] == g0[x - 1][y - 1 := p][j];
      } else {
        assert forall j :: 0 <= j < 8 ==> g1[i][j] == g0[i][j];
      }
    }
  }

  class Board {
    var grid: array2<Option<PieceId>>
    /** Every piece object constructed on this board, by id. */
    var store: map<PieceId, Piece>
    var inPlay: seq<PieceId>
    var captures: map<Faction, seq<Option<PieceId>>>
    var kings: map<Faction, Cell>
    var previousTurn: Option<Faction>
    var hasGame: bool
    var nextId: PieceId

    /** The board's current state as a value of the functional model. */
    function State(): BoardModel.BoardState
      requires grid.Length0 == 8 && grid.Length1 == 8
      reads this, grid
    {
      BoardModel.BoardState(GridOf(grid), store, inPlay, captures, kings, previousTurn, hasGame, nextId)
    }

    ghost predicate Valid()
      reads this, grid
    {
      grid.Length0 == 8 && grid.Length1 == 8 && BoardModel.WellFormed(State())
    }

    /** `Board.new(game)`: an empty grid, no pieces, no captures, no kings. */
    constructor (hasGame: bool)
      ensures Valid() && fresh(grid)
      ensures State() == BoardModel.NewBoard(hasGame)
    {
      grid := new Option<PieceId>[8, 8]((i, j) => None);
      store := map[];
      inPlay := [];
      captures := map[];
      kings := map[];
      previousTurn := None;
      this.hasGame := hasGame;
      nextId := 0;
      new;
      assert GridOf(grid) == BoardModel.EmptyGrid() by {
        forall i | 0 <= i < 8 ensures GridOf(grid)[i] == BoardModel.EmptyGrid()[i] { }
      }
    }

    /** `get(x, y)`. */
    method Get(x: int, y: int) returns (p: Option<PieceId>)
      requires Valid() && InBounds((x, y))
      ensures p == BoardModel.Get(State(), x, y)
    {
      p := grid[x - 1, y - 1];
    }

    /** `update_pieces`. */
    method UpdatePieces(p: Option<PieceId>, x: int, y: int)
      requires Valid() && InBounds((x, y)) && (p.Some? ==> p.value in store)
      modifies this
      ensures grid == old(grid)
      ensures State() == BoardModel.UpdatePieces(old(State()), p, x, y)
      ensures Valid()
    {
      if p.Some? {
        inPlay := BoardModel.Insert(inPlay, p.value);
      }
      var occupant := grid[x - 1, y - 1];
      if occupant.Some? {
        inPlay := BoardModel.Delete(inPlay, occupant.value);
      }
    }

    /** `piece.position = [x, y] unless piece.nil?`. */
    method Reposition(p: Option<PieceId>, x: int, y: int)
      requires Valid() && InBounds((x, y)) && (p.Some? ==> p.value in store)
      modifies this
      ensures grid == old(grid)
      ensures State() == BoardModel.Reposition(old(State()), p, x, y)
      ensures Valid()
    {
      if p.Some? {
        store := store[p.value := store[p.value].(position := (x, y))];
      }
    }

    /** `kings[piece.faction] = [x, y] if piece.class == King`. */
    method CacheKing(p: Option<PieceId>, x: int, y: int)
      requires Valid()
      modifies this
      ensures grid == old(grid)
      ensures State() == BoardModel.CacheKing(old(State()), p, x, y)
      ensures Valid()
    {
      if p.Some? && p.value in store && store[p.value].kind == King {
        kings := kings[store[p.value].faction := (x, y)];
      }
    }

    /** `grid[x - 1][y - 1] = piece`. */
    method WriteCell(x: int, y: int, p: Option<PieceId>)
      requires Valid() && InBounds((x, y)) && (p.Some? ==> p.value in store)
      modifies grid
      ensures grid.Length0 == 8 && grid.Length1 == 8
      ensures State() == BoardModel.WithCell(old(State()), x, y, p)
      ensures Valid()
    {
      ghost var g0 := GridOf(grid);
      grid[x - 1, y - 1] := p;
      assert forall i, j :: 0 <= i < 8 && 0 <= j < 8 ==>
        GridOf(grid)[i][j] == if (i, j) == (x - 1, y - 1) then p else g0[i][j];
      GridUpdate(g0, GridOf(grid), x, y, p);
    }

    /** `place`: the only write to the grid, the positions and the king cache. */
    method Place(p: Option<PieceId>, x: int, y: int)
      requires Valid() && InBounds((x, y)) && (p.Some? ==> p.value in store)
      modifies this, grid
      ensures grid == old(grid)
      ensures State() == BoardModel.Place(old(State()), p, x, y)
      ensures Valid()
    {
      UpdatePieces(p, x, y);
      Reposition(p, x, y);
      CacheKing(p, x, y);
      WriteCell(x, y, p);
    }

    // -------------------------------------------------------------------
    // Capture accounting
    // -------------------------------------------------------------------

    /** `captures[faction] << piece`, creating the list on first use. */
    method Capture(f: Faction, q: Option<PieceId>)
      requires Valid()
      modifies this
      ensures grid == old(grid)
      ensures State() == BoardModel.Capture(old(State()), f, q)
      ensures Valid()
    {
      var list := if f in captures then captures[f] else [];
      captures := captures[f := list + [q]];
    }

    /** `ordinary_capture`. */
    method OrdinaryCapture(p: Option<PieceId>, x: int, y: int)
      requires Valid() && InBounds((x, y)) && (p.Some? ==> p.value in store)
      modifies this
      ensures grid == old(grid)
      ensures State() == BoardModel.OrdinaryCapture(old(State()), p, x, y)
      ensures Valid()
    {
      var occupant := grid[x - 1, y - 1];
      if !(p.None? || occupant.None?) {
        Capture(store[p.value].faction, occupant);
      }
    }

    /** `en_passant_capture`. */
    method EnPassantCapture(p: Option<PieceId>, x: int, y: int)
      requires Valid() && BoardModel.EnPassantQ(State(), p, x, y)
      modifies this, grid
      ensures grid == old(grid)
      ensures State() == BoardModel.EnPassantCapture(old(State()), p, x, y)
      ensures Valid()
    {
      ghost var c := BoardModel.CaptureCell(State(), p);
      var cell := store[p.value].enPassantCaptureCell.value;
      assert cell == c;
      var captured := grid[cell.0 - 1, cell.1 - 1];
      Capture(store[p.value].faction, captured);
      Place(None, cell.0, cell.1);
    }

    /** `update_captures`. */
    method UpdateCaptures(p: Option<PieceId>, x: int, y: int)
      requires Valid() && InBounds((x, y)) && (p.Some? ==> p.value in store)
      modifies this, grid
      ensures grid == old(grid)
      ensures State() == BoardModel.UpdateCaptures(old(State()), p, x, y)
      ensures Valid()
    {
      if p.Some? && store[p.value].kind == Pawn && store[p.value].enPassantCell == Some((x, y)) {
        EnPassantCapture(p, x, y);
      } else {
        OrdinaryCapture(p, x, y);
      }
    }

    // -------------------------------------------------------------------
    // Promotion and piece construction
    // -------------------------------------------------------------------

    /** `choose_promotion`: nil without a game, otherwise the player's answer. */
    method ChoosePromotion(answer: string) returns (selection: Option<string>)
      requires Valid()
      ensures selection == BoardModel.ChoosePromotion(State(), answer)
    {
      if !hasGame {
        return None;
      }
      selection := Some(answer);
    }

    /** `handle_promotion`: a Pawn on rank 1 or 8 is lifted and replaced. */
    method HandlePromotion(p: Option<PieceId>, x: int, y: int, answer: string)
      requires Valid() && InBounds((x, y)) && (p.Some? ==> p.value in store)
      modifies this, grid
      ensures grid == old(grid)
      ensures State() == BoardModel.HandlePromotion(old(State()), p, x, y, answer)
      ensures Valid()
      decreases BoardModel.SetRank(State(), p), 1
    {
      if p.Some? && store[p.value].kind == Pawn && (y == 1 || y == 8) {
        ghost var s0 := State();
        var faction := store[p.value].faction;
        var selection := ChoosePromotion(answer);
        Place(None, x, y);
        PromoteTo(selection, faction, x, y, answer);
        BoardProps.PromotionSteps(s0, p, x, y, answer);
      }
    }

    /** `promote_to`: a Queen unless the selection is r, b or n. */
    method PromoteTo(selection: Option<string>, faction: Faction, x: int, y: int, answer: string)
      requires Valid() && InBounds((x, y))
      modifies this, grid
      ensures grid == old(grid)
      ensures State() == BoardModel.PromoteTo(old(State()), selection, faction, x, y, answer)
      ensures Valid()
      decreases 1, 0
    {
      if !(selection == Some("r") || selection == Some("b") || selection == Some("n")) {
        var queen := NewPiece(Queen, faction, x, y, false, answer);
      }
      if selection == Some("r") {
        var rook := NewPiece(Rook, faction, x, y, false, answer);
      }
      if selection == Some("b") {
        var bishop := NewPiece(Bishop, faction, x, y, false, answer);
      }
      if selection == Some("n") {
        var knight := NewPiece(Knight, faction, x, y, false, answer);
      }
    }

    /**
     * `Piece.new(board, faction, x, y, moved)`: a new piece object with the
     * next id, which sets itself onto the board.
     */
    method NewPiece(kind: Kind, faction: Faction, x: int, y: int, moved: bool, answer: string) returns (id: PieceId)
      requires Valid() && InBounds((x, y))
      modifies this, grid
      ensures grid == old(grid)
      ensures (State(), id) == BoardModel.NewPiece(old(State()), kind, faction, x, y, moved, answer)
      ensures Valid()
      decreases BoardModel.KindRank(kind), 3
    {
      ghost var s0 := State();
      id := nextId;
      store := store[id := Fresh(kind, faction, (x, y), moved)];
      nextId := nextId + 1;
      assert State() == BoardModel.Allocate(s0, kind, faction, x, y, moved);
      assert BoardModel.SetRank(State(), Some(id)) == BoardModel.KindRank(kind);
      Set(Some(id), x, y, answer);
      BoardProps.NewPieceSteps(s0, kind, faction, x, y, moved, answer);
    }

    // -------------------------------------------------------------------
    // Castling
    // -------------------------------------------------------------------

    /** `move_rook`. */
    method MoveRook(y: int, rookX1: int, rookX2: int)
      requires Valid() && InBounds((rookX1, y)) && InBounds((rookX2, y))
      modifies this, grid
      ensures grid == old(grid)
      ensures State() == BoardModel.MoveRook(old(State()), y, rookX1, rookX2)
      ensures Valid()
    {
      var rook := grid[rookX1 - 1, y - 1];
      Place(None, rookX1, y);
      Place(rook, rookX2, y);
    }

    /** `handle_castling`. */
    method HandleCastling(p: Option<PieceId>, x: int, y: int)
      requires Valid() && InBounds((x, y))
      modifies this, grid
      ensures grid == old(grid)
      ensures State() == BoardModel.HandleCastling(old(State()), p, x, y)
      ensures Valid()
    {
      ghost var s0 := State();
      if p.Some? && p.value in store && store[p.value].kind == King
         && |store[p.value].castlingCells| > 0 && (x, y) in store[p.value].castlingCells {
        assert BoardModel.CastlingQ(s0, p, x, y);
        if x == 7 {
          MoveRook(y, 8, 6);
        }
        if x == 3 {
          MoveRook(y, 1, 4);
        }
      } else {
        assert !BoardModel.CastlingQ(s0, p, x, y);
      }
    }

    // -------------------------------------------------------------------
    // The mutation path
    // -------------------------------------------------------------------

    /** `set(piece, x, y)`. */
    method Set(p: Option<PieceId>, x: int, y: int, answer: string)
      requires Valid() && InBounds((x, y)) && (p.Some? ==> p.value in store)
      modifies this, grid
      ensures grid == old(grid)
      ensures State() == BoardModel.Set(old(State()), p, x, y, answer)
      ensures Valid()
      decreases BoardModel.SetRank(State(), p), 2
    {
      ghost var s0 := State();
      UpdateCaptures(p, x, y);
      Place(p, x, y);
      assert BoardModel.SetRank(State(), p) == BoardModel.SetRank(s0, p) by {
        if p.Some? { assert BoardModel.SameIdentity(s0.store[p.value], store[p.value]); }
      }
      HandlePromotion(p, x, y, answer);
      HandleCastling(p, x, y);
      BoardProps.SetSteps(s0, p, x, y, answer);
    }

    /** `disable_en_passant`: every Pawn in play, in set order, loses its en-passant cell. */
    method DisableEnPassant()
      requires Valid()
      modifies this
      ensures grid == old(grid)
      ensures State() == BoardModel.DisableEnPassant(old(State()))
      ensures Valid()
    {
      var cleared := store;
      var i := 0;
      while i < |inPlay|
        invariant 0 <= i <= |inPlay|
        invariant cleared.Keys == store.Keys
        invariant BoardModel.ClearEnPassant(cleared, inPlay[i..]) == BoardModel.ClearEnPassant(store, inPlay)
      {
        var id := inPlay[i];
        if cleared[id].kind == Pawn {
          cleared := cleared[id := cleared[id].(enPassantCell := None)];
        }
        assert inPlay[i..][1..] == inPlay[i + 1..];
        i := i + 1;
      }
      assert inPlay[i..] == [];
      store := cleared;
    }

    /** `move(x1, y1, x2, y2)`. */
    method Move(x1: int, y1: int, x2: int, y2: int, answer: string)
      requires Valid() && InBounds((x1, y1)) && InBounds((x2, y2)) && BoardModel.Get(State(), x1, y1).Some?
      modifies this, grid
      ensures grid == old(grid)
      ensures State() == BoardModel.Move(old(State()), x1, y1, x2, y2, answer)
      ensures Valid()
    {
      ghost var s0 := State();
      var piece := grid[x1 - 1, y1 - 1];
      previousTurn := Some(store[piece.value].faction);
      assert State() == BoardModel.RecordTurn(s0, s0.store[piece.value].faction);
      Set(None, x1, y1, answer);
      Set(piece, x2, y2, answer);
      DisableEnPassant();
      BoardProps.MoveSteps(s0, x1, y1, x2, y2, answer);
    }

    // -------------------------------------------------------------------
    // Copying and simulation
    // -------------------------------------------------------------------

    /** `copy_pieces_to(new_board)`: copy every live piece, in set order. */
    method CopyPiecesTo(b: Board)
      requires Valid() && b.Valid() && b != this && b.grid != grid
      modifies b, b.grid
      ensures b.grid == old(b.grid)
      ensures b.State() == BoardModel.CopyPiecesTo(State(), inPlay, old(b.State()))
      ensures b.Valid()
    {
      var i := 0;
      while i < |inPlay|
        invariant 0 <= i <= |inPlay|
        invariant b.grid == old(b.grid) && b.Valid()
        invariant BoardModel.CopyPiecesTo(State(), inPlay[i..], b.State()) ==
          BoardModel.CopyPiecesTo(State(), inPlay, old(b.State()))
      {
        CopyTo(store[inPlay[i]], b, "");  // the copy has no game, so the answer is never read
        assert inPlay[i..][1..] == inPlay[i + 1..];
        i := i + 1;
      }
      assert inPlay[i..] == [];
    }

    /** `copy`: a new board without a game holding copies of the live pieces. */
    method Copy() returns (b: Board)
      requires Valid()
      ensures fresh(b) && fresh(b.grid)
      ensures b.grid.Length0 == 8 && b.grid.Length1 == 8
      ensures b.State() == BoardModel.Copy(State())
      ensures b.Valid()
    {
      b := new Board(false);
      CopyPiecesTo(b);
      b.previousTurn := previousTurn;
    }

    /** `simulation`: play the move on a copy; true when the mover is not in check there. */
    method Simulation(id: PieceId, x: int, y: int, gen: BoardModel.Generator) returns (safe: bool)
      requires Valid() && id in inPlay && InBounds((x, y))
      ensures safe == BoardModel.Simulation(old(State()), id, x, y, gen)
    {
      var simulationBoard := Copy();
      safe := PlayOnCopy(simulationBoard, State(), id, store[id].position, store[id].faction, x, y, gen);
    }

    /** `simulate_castling`: the king's cell, the cell it passes and the destination must be unattacked. */
    method SimulateCastling(id: PieceId, x: int, y: int, gen: BoardModel.Generator) returns (safe: bool)
      requires Valid() && id in inPlay && InBounds((x, y))
      ensures safe == BoardModel.SimulateCastling(old(State()), id, x, y, gen)
    {
      var middle := if x == 7 then (6, y) else (4, y);
      var notChecked := !BoardModel.Checked(State(), store[id].faction, gen);
      var middleNotChecked := Simulation(id, middle.0, middle.1, gen);
      var destinationNotChecked := Simulation(id, x, y, gen);
      safe := notChecked && middleNotChecked && destinationNotChecked;
    }

    /** `simulate_move`. */
    method SimulateMove(id: PieceId, x: int, y: int, gen: BoardModel.Generator) returns (safe: bool)
      requires Valid() && id in inPlay && InBounds((x, y))
      ensures safe == BoardModel.SimulateMove(old(State()), id, x, y, gen)
    {
      if store[id].kind == King && |store[id].castlingCells| > 0 && (x, y) in store[id].castlingCells {
        safe := SimulateCastling(id, x, y, gen);
      } else {
        safe := Simulation(id, x, y, gen);
      }
    }
  }

  /** Play the move of `id` on `b`, a copy of `s`, and report whether its faction is then out of check. */
  method PlayOnCopy(b: Board, ghost s: BoardModel.BoardState, id: PieceId, from: Cell, faction: Faction,
                    x: int, y: int, gen: BoardModel.Generator) returns (safe: bool)
    requires BoardModel.WellFormed(s) && id in s.inPlay && InBounds((x, y))
    requires from == s.store[id].position && faction == s.store[id].faction
    requires b.Valid() && b.State() == BoardModel.Copy(s)
    modifies b, b.grid
    ensures safe == BoardModel.Simulation(s, id, x, y, gen)
  {
    BoardProps.SimulationSteps(s, id, x, y, gen);
    b.Move(from.0, from.1, x, y, "");  // no game on the copy: the answer is never read
    safe := !BoardModel.Checked(b.State(), faction, gen);
  }

  /** `copy_to(another_board)`: construct a piece of the same class, faction, position and moved flag there. */
  method CopyTo(p: Piece, target: Board, answer: string)
    requires target.Valid() && InBounds(p.position)
    modifies target, target.grid
    ensures target.grid == old(target.grid)
    ensures target.State() == BoardModel.CopyTo(p, old(target.State()), answer)
    ensures target.Valid()
  {
    var id := target.NewPiece(p.kind, p.faction, p.position.0, p.position.1, p.moved, answer);
  }
}

=== FILE: board_invariant.dfy ===
/**
 * The consistency of lib/board.rb: every occupied cell holds a live piece
 * whose `position` is that cell, and every live piece stands on the cell
 * its `position` names. Every step of the mutation path keeps it, as long
 * as the piece being set is not already live (the way `move` and piece
 * construction call `set`); `move`, `proceed`, construction and `copy`
 * therefore keep it too.
 */
module BoardInvariant {
  import opened Pieces
  import opened BoardModel
  import opened BoardProps

  /** A piece that may be set without breaking consistency: nil, or a piece that is not live. */
  ghost predicate Placeable(s: BoardState, p: Option<PieceId>) {
    p.Some? ==> p.value in s.store && p.value !in s.inPlay
  }

  // ---------------------------------------------------------------------
  // place
  // ---------------------------------------------------------------------

  /** `place` keeps the board consistent when the placed piece is not live. */
  lemma {:induction false} PlaceConsistent(s: BoardState, p: Option<PieceId>, x: int, y: int)
    requires Consistent(s) && InBounds((x, y)) && Placeable(s, p)
    ensures Consistent(Place(s, p, x, y))
  {
    var r := Place(s, p, x, y);
    forall a, b | InBounds((a, b)) && Get(r, a, b).Some?
      ensures Get(r, a, b).value in r.inPlay && r.store[Get(r, a, b).value].position == (a, b)
    {
      if (a, b) != (x, y) {
        var z := Get(s, a, b).value;
        assert Get(r, a, b) == Get(s, a, b);
        assert z in s.inPlay && s.store[z].position == (a, b);
        assert Get(s, x, y) != Some(z);
      }
    }
    forall id | id in r.inPlay
      ensures Get(r, r.store[id].position.0, r.store[id].position.1) == Some(id)
    {
      if p != Some(id) {
        var pos := s.store[id].position;
        assert id in s.inPlay && Get(s, pos.0, pos.1) == Some(id);
        assert pos != (x, y);
      }
    }
  }

  /** Consistency reads only the grid, the pieces, the live set and the id allocator. */
  lemma ConsistentFrame(s: BoardState, r: BoardState)
    requires Consistent(s)
    requires r.grid == s.grid && r.store == s.store && r.inPlay == s.inPlay && r.nextId == s.nextId
    ensures Consistent(r)
  {
    assert WellFormed(r);
    forall a, b | InBounds((a, b)) ensures Get(r, a, b) == Get(s, a, b) { }
  }

  // ---------------------------------------------------------------------
  // Capture accounting
  // ---------------------------------------------------------------------

  /** `update_captures` keeps consistency, and a piece that was not live is still not live. */
  lemma UpdateCapturesConsistent(s: BoardState, p: Option<PieceId>, x: int, y: int)
    requires Consistent(s) && InBounds((x, y)) && Placeable(s, p)
    ensures Consistent(UpdateCaptures(s, p, x, y)) && Placeable(UpdateCaptures(s, p, x, y), p)
  {
    if EnPassantQ(s, p, x, y) {
      var c := CaptureCell(s, p);
      var s1 := Capture(s, s.store[p.value].faction, Get(s, c.0, c.1));
      ConsistentFrame(s, s1);
      PlaceConsistent(s1, None, c.0, c.1);
    } else {
      ConsistentFrame(s, OrdinaryCapture(s, p, x, y));
    }
  }

  // ---------------------------------------------------------------------
  // Castling
  // ---------------------------------------------------------------------

  /** `move_rook` lifts the rook, which is then no longer live, and places it again. */
  lemma MoveRookConsistent(s: BoardState, y: int, rookX1: int, rookX2: int)
    requires Consistent(s) && InBounds((rookX1, y)) && InBounds((rookX2, y))
    ensures Consistent(MoveRook(s, y, rookX1, rookX2))
  {
    var rook := Get(s, rookX1, y);
    var s1 := Place(s, None, rookX1, y);
    PlaceConsistent(s, None, rookX1, y);
    assert Placeable(s1, rook);
    PlaceConsistent(s1, rook, rookX2, y);
  }

  lemma HandleCastlingConsistent(s: BoardState, p: Option<PieceId>, x: int, y: int)
    requires Consistent(s) && InBounds((x, y))
    ensures Consistent(HandleCastling(s, p, x, y))
  {
    if CastlingQ(s, p, x, y) && x == 7 {
      MoveRookConsistent(s, y, 8, 6);
    } else if CastlingQ(s, p, x, y) && x == 3 {
      MoveRookConsistent(s, y, 1, 4);
    }
  }

  // ---------------------------------------------------------------------
  // Piece construction
  // ---------------------------------------------------------------------

  /** Allocating a piece object keeps consistency; the new piece is not live. */
  lemma AllocateConsistent(s: BoardState, kind: Kind, faction: Faction, x: int, y: int, moved: bool)
    requires Consistent(s) && InBounds((x, y))
    ensures var r := Allocate(s, kind, faction, x, y, moved);
      Consistent(r) && Placeable(r, Some(s.nextId))
  {
    var r := Allocate(s, kind, faction, x, y, moved);
    forall a, b | InBounds((a, b)) ensures Get(r, a, b) == Get(s, a, b) { }
  }

  // ---------------------------------------------------------------------
  // set, promotion and construction, which call each other
  // ---------------------------------------------------------------------

  /** `set` of a piece that is not live keeps the board consistent. */
  lemma {:induction false} SetConsistent(s: BoardState, p: Option<PieceId>, x: int, y: int, answer: string)
    requires Consistent(s) && InBounds((x, y)) && Placeable(s, p)
    ensures Consistent(Set(s, p, x, y, answer))
    decreases SetRank(s, p), 2
  {
    var s1 := UpdateCaptures(s, p, x, y);
    var s2 := Place(s1, p, x, y);
    var s3 := HandlePromotion(s2, p, x, y, answer);
    SetSteps(s, p, x, y, answer);
    UpdateCapturesConsistent(s, p, x, y);
    PlaceConsistent(s1, p, x, y);
    assert SetRank(s2, p) == SetRank(s, p) by {
      if p.Some? { assert SameIdentity(s.store[p.value], s2.store[p.value]); }
    }
    HandlePromotionConsistent(s2, p, x, y, answer);
    HandleCastlingConsistent(s3, p, x, y);
  }

  /** `handle_promotion` keeps consistency: the replacement is a fresh piece. */
  lemma {:induction false} HandlePromotionConsistent(s: BoardState, p: Option<PieceId>, x: int, y: int, answer: string)
    requires Consistent(s) && InBounds((x, y)) && (p.Some? ==> p.value in s.store)
    ensures Consistent(HandlePromotion(s, p, x, y, answer))
    decreases SetRank(s, p), 1
  {
    if PawnPromotionQ(s, p, x, y) {
      var kind := PromotionKind(ChoosePromotion(s, answer));
      PromotionSteps(s, p, x, y, answer);
      PlaceConsistent(s, None, x, y);
      PromotionKindNotPawn(ChoosePromotion(s, answer));
      NewPieceConsistent(Place(s, None, x, y), kind, s.store[p.value].faction, x, y, false, answer);
    } else {
      NotPromotion(s, p, x, y, answer);
    }
  }

  /** Constructing a piece keeps the board consistent. */
  lemma {:induction false} NewPieceConsistent(s: BoardState, kind: Kind, faction: Faction, x: int, y: int, moved: bool, answer: string)
    requires Consistent(s) && InBounds((x, y))
    ensures Consistent(NewPiece(s, kind, faction, x, y, moved, answer).0)
    decreases KindRank(kind), 3
  {
    var s1 := Allocate(s, kind, faction, x, y, moved);
    NewPieceSteps(s, kind, faction, x, y, moved, answer);
    AllocateConsistent(s, kind, faction, x, y, moved);
    assert SetRank(s1, Some(s.nextId)) == KindRank(kind);
    SetConsistent(s1, Some(s.nextId), x, y, answer);
  }

  // ---------------------------------------------------------------------
  // move, proceed and copy
  // ---------------------------------------------------------------------

  /** `disable_en_passant` only clears en-passant cells, so no position moves. */
  lemma DisableEnPassantConsistent(s: BoardState)
    requires Consistent(s)
    ensures Consistent(DisableEnPassant(s))
  {
    var r := DisableEnPassant(s);
    assert forall id :: id in s.store ==> r.store[id].position == s.store[id].position;
    forall a, b | InBounds((a, b)) ensures Get(r, a, b) == Get(s, a, b) { }
  }

  /**
   * `move` keeps the board consistent: lifting the piece takes it out of
   * play, so setting it on the destination sets a piece that is not live.
   */
  lemma MoveConsistent(s: BoardState, x1: int, y1: int, x2: int, y2: int, answer: string)
    requires Consistent(s) && InBounds((x1, y1)) && InBounds((x2, y2)) && Get(s, x1, y1).Some?
    ensures Consistent(Move(s, x1, y1, x2, y2, answer))
  {
    var piece := Get(s, x1, y1).value;
    var s1 := RecordTurn(s, s.store[piece].faction);
    var s2 := Set(s1, None, x1, y1, answer);
    var s3 := Set(s2, Some(piece), x2, y2, answer);
    ConsistentFrame(s, s1);
    SetConsistent(s1, None, x1, y1, answer);
    SetNil(s1, x1, y1, answer);
    assert Placeable(s2, Some(piece));
    SetConsistent(s2, Some(piece), x2, y2, answer);
    DisableEnPassantConsistent(s3);
    MoveSteps(s, x1, y1, x2, y2, answer);
  }

  /** `proceed` keeps the board consistent: marking a piece moved changes no position. */
  lemma ProceedConsistent(s: BoardState, id: PieceId, x: int, y: int, answer: string)
    requires Consistent(s) && id in s.inPlay && InBounds((x, y))
    ensures Consistent(Proceed(s, id, x, y, answer))
  {
    var pos := s.store[id].position;
    var s1 := MarkMoved(s, id);
    forall a, b | InBounds((a, b)) ensures Get(s1, a, b) == Get(s, a, b) { }
    assert Consistent(s1);
    MoveConsistent(s1, pos.0, pos.1, x, y, answer);
  }

  /** Copying pieces onto a consistent board keeps it consistent. */
  lemma {:induction false} CopyPiecesToConsistent(s: BoardState, ids: seq<PieceId>, target: BoardState)
    requires WellFormed(s) && Consistent(target) && forall id :: id in ids ==> id in s.store
    ensures Consistent(CopyPiecesTo(s, ids, target))
    decreases |ids|
  {
    if ids != [] {
      var p := s.store[ids[0]];
      NewPieceConsistent(target, p.kind, p.faction, p.position.0, p.position.1, p.moved, "");
      CopyPiecesToConsistent(s, ids[1..], CopyTo(p, target, ""));
    }
  }

  /** `copy` of any board is consistent. */
  lemma CopyConsistent(s: BoardState)
    requires WellFormed(s)
    ensures Consistent(Copy(s))
  {
    var t := CopyPiecesTo(s, s.inPlay, NewBoard(false));
    CopyPiecesToConsistent(s, s.inPlay, NewBoard(false));
    ConsistentFrame(t, t.(previousTurn := s.previousTurn));
  }
}

=== FILE: board_model.dfy ===
/**
 * The board of lib/board.rb as a value, and every operation on it as a
 * function of the old value: the single mutation path `set` (capture
 * accounting, placement, promotion, castling), `move`, the copy used for
 * simulation, and the queries built on simulation. The parts of
 * lib/pieces/piece.rb that the board calls back into (the constructor's
 * self-placement, `copy_to`, `safe_moves`, `friendly?`, `enemy?` and
 * `proceed`) are here too, because the two files depend on each other.
 *
 * Pieces are identified by ids into `store`, which holds every piece ever
 * constructed on this board (captured ones included).
 */
module BoardModel {
  import opened Pieces

  /** `grid[x - 1][y - 1]` is the occupant of cell [x, y]. */
  type Grid = seq<seq<Option<PieceId>>>

  datatype BoardState = BoardState(
    grid: Grid,
    store: map<PieceId, Piece>,
    /** `pieces_in_play`: a Ruby Set, iterated in insertion order. */
    inPlay: seq<PieceId>,
    /** Per-faction capture lists; a missing key reads as []. */
    captures: map<Faction, seq<Option<PieceId>>>,
    kings: map<Faction, Cell>,
    previousTurn: Option<Faction>,
    /** Whether the board has a `game` back-reference. */
    hasGame: bool,
    /** The next unused piece id. */
    nextId: PieceId)

  /**
   * Candidate-move generation of the piece variants (`show_legal_moves`),
   * a function of the whole board and the piece.
   */
  type Generator = (BoardState, PieceId) -> seq<Cell>

  /** The base generator of lib/pieces/piece.rb: every cell of the board. */
  function BaseGenerator(): Generator {
    (s: BoardState, id: PieceId) => AllCells()
  }

  /** A generator only ever offers cells of the board. */
  ghost predicate ValidGenerator(gen: Generator) {
    forall s: BoardState, id: PieceId, c: Cell :: c in gen(s, id) ==> InBounds(c)
  }

  // ---------------------------------------------------------------------
  // Well-formedness of a board value
  // ---------------------------------------------------------------------

  predicate GridShape(g: Grid) {
    |g| == 8 && forall i :: 0 <= i < 8 ==> |g[i]| == 8
  }

  predicate Distinct(xs: seq<PieceId>) {
    forall i, j :: 0 <= i < j < |xs| ==> xs[i] != xs[j]
  }

  ghost predicate PieceOk(p: Piece) {
    && InBounds(p.position)
    && (p.enPassantCell.Some? ==>
          p.enPassantCaptureCell.Some? && InBounds(p.enPassantCaptureCell.value))
  }

  /**
   * What the board's operations need to be defined: an 8x8 grid whose
   * occupants exist, a duplicate-free set of live pieces, pieces on the
   * board and an id allocator ahead of every id in use.
   */
  ghost predicate WellFormed(s: BoardState) {
    && GridShape(s.grid)
    && (forall x, y :: InBounds((x, y)) && Get(s, x, y).Some? ==> Get(s, x, y).value in s.store)
    && (forall id :: id in s.inPlay ==> id in s.store)
    && Distinct(s.inPlay)
    && (forall id :: id in s.store ==> id < s.nextId && PieceOk(s.store[id]))
  }

  /** Two pieces that are the same object at different moments. */
  predicate SameIdentity(a: Piece, b: Piece) {
    && a.kind == b.kind
    && a.faction == b.faction
    && a.moved == b.moved
    && a.enPassantCaptureCell == b.enPassantCaptureCell
    && a.castlingCells == b.castlingCells
  }

  /**
   * `r` is a later state of the same board as `s`: every piece keeps its
   * identity (only its position and en-passant cell may differ) and every
   * faction's capture list only grows.
   */
  ghost predicate Extends(s: BoardState, r: BoardState) {
    && s.store.Keys <= r.store.Keys
    && (forall id :: id in s.store ==> SameIdentity(s.store[id], r.store[id]))
    && (forall f :: CapturesOf(s, f) <= CapturesOf(r, f))
  }

  lemma ExtendsTransitive(a: BoardState, b: BoardState, c: BoardState)
    requires Extends(a, b) && Extends(b, c)
    ensures Extends(a, c)
  {
  }

  /**
   * The consistency every committed board state keeps: each occupied cell
   * holds a live piece whose position is that cell, and each live piece
   * sits on the cell its position names.
   */
  ghost predicate Consistent(s: BoardState) {
    && WellFormed(s)
    && (forall x, y :: InBounds((x, y)) && Get(s, x, y).Some? ==>
          Get(s, x, y).value in s.inPlay && s.store[Get(s, x, y).value].position == (x, y))
    && (forall id :: id in s.inPlay ==>
          Get(s, s.store[id].position.0, s.store[id].position.1) == Some(id))
  }

  // ---------------------------------------------------------------------
  // Reads
  // ---------------------------------------------------------------------

  /** `get(x, y)`: no bounds checking in the source, so callers stay in bounds. */
  function Get(s: BoardState, x: int, y: int): Option<PieceId>
    requires GridShape(s.grid) && InBounds((x, y))
  {
    s.grid[x - 1][y - 1]
  }

  /** `piece.class == k`, where a nil piece is of no class. */
  predicate IsKind(s: BoardState, p: Option<PieceId>, k: Kind) {
    p.Some? && p.value in s.store && s.store[p.value].kind == k
  }

  function CapturesOf(s: BoardState, f: Faction): seq<Option<PieceId>> {
    if f in s.captures then s.captures[f] else []
  }

  function EmptyGrid(): (g: Grid)
    ensures GridShape(g)
  {
    seq(8, _ => seq(8, _ => None))
  }

  /** `Board.new(game)`. */
  function NewBoard(hasGame: bool): (r: BoardState)
    ensures WellFormed(r)
    ensures forall x, y :: InBounds((x, y)) ==> Get(r, x, y) == None
  {
    BoardState(EmptyGrid(), map[], [], map[], map[], None, hasGame, 0)
  }

  // ---------------------------------------------------------------------
  // pieces_in_play as an insertion-ordered set
  // ---------------------------------------------------------------------

  /** `set << x`: appended unless already present. */
  function Insert(xs: seq<PieceId>, x: PieceId): (r: seq<PieceId>)
    ensures forall z :: z in r <==> z in xs || z == x
    ensures Distinct(xs) ==> Distinct(r)
  {
    if x in xs then xs else xs + [x]
  }

  /** `set.delete(x)`: the others keep their order. */
  function Delete(xs: seq<PieceId>, x: PieceId): (r: seq<PieceId>)
    ensures forall z :: z in r <==> z in xs && z != x
    ensures Distinct(xs) ==> Distinct(r)
  {
    if xs == [] then []
    else
      var rest := Delete(xs[1..], x);
      assert Distinct(xs) ==> Distinct(xs[1..]) && xs[0] !in xs[1..] by {
        if Distinct(xs) {
          forall k | 0 <= k < |xs| - 1 ensures xs[1..][k] != xs[0] {
            assert xs[1..][k] == xs[k + 1];
          }
        }
      }
      if xs[0] == x then rest else [xs[0]] + rest
  }

  // ---------------------------------------------------------------------
  // Placement
  // ---------------------------------------------------------------------

  /** `update_pieces`: add the new piece, then delete the old occupant. */
  function UpdatePieces(s: BoardState, p: Option<PieceId>, x: int, y: int): (r: BoardState)
    requires GridShape(s.grid) && InBounds((x, y))
    ensures r.grid == s.grid && r.store == s.store && r.captures == s.captures && r.kings == s.kings
    ensures r.previousTurn == s.previousTurn && r.hasGame == s.hasGame && r.nextId == s.nextId
    ensures forall z :: z in r.inPlay <==> (z in s.inPlay || p == Some(z)) && Get(s, x, y) != Some(z)
    ensures Distinct(s.inPlay) ==> Distinct(r.inPlay)
    ensures WellFormed(s) && (p.Some? ==> p.value in s.store) ==> WellFormed(r)
  {
    var added := if p.Some? then Insert(s.inPlay, p.value) else s.inPlay;
    var occupant := Get(s, x, y);
    s.(inPlay := if occupant.Some? then Delete(added, occupant.value) else added)
  }

  /** `grid[x - 1][y - 1] = p`. */
  function WithCell(s: BoardState, x: int, y: int, p: Option<PieceId>): (r: BoardState)
    requires GridShape(s.grid) && InBounds((x, y))
    ensures r.store == s.store && r.inPlay == s.inPlay && r.captures == s.captures && r.kings == s.kings
    ensures r.previousTurn == s.previousTurn && r.hasGame == s.hasGame && r.nextId == s.nextId
    ensures GridShape(r.grid)
    ensures Get(r, x, y) == p
    ensures forall a, b :: InBounds((a, b)) && (a, b) != (x, y) ==> Get(r, a, b) == Get(s, a, b)
    ensures WellFormed(s) && (p.Some? ==> p.value in s.store) ==> WellFormed(r)
  {
    s.(grid := s.grid[x - 1 := s.grid[x - 1][y - 1 := p]])
  }

  /** `piece.position = [x, y] unless piece.nil?`. */
  function Reposition(s: BoardState, p: Option<PieceId>, x: int, y: int): (r: BoardState)
    requires WellFormed(s) && InBounds((x, y)) && (p.Some? ==> p.value in s.store)
    ensures WellFormed(r) && Extends(s, r) && r.store.Keys == s.store.Keys
    ensures r.grid == s.grid && r.inPlay == s.inPlay && r.captures == s.captures && r.kings == s.kings
    ensures r.previousTurn == s.previousTurn && r.hasGame == s.hasGame && r.nextId == s.nextId
    ensures p.Some? ==> r.store[p.value] == s.store[p.value].(position := (x, y))
    ensures forall id :: id in s.store && p != Some(id) ==> r.store[id] == s.store[id]
  {
    if p.Some? then s.(store := s.store[p.value := s.store[p.value].(position := (x, y))]) else s
  }

  /** `kings[piece.faction] = [x, y] if piece.class == King`. */
  function CacheKing(s: BoardState, p: Option<PieceId>, x: int, y: int): (r: BoardState)
    ensures r.grid == s.grid && r.store == s.store && r.inPlay == s.inPlay && r.captures == s.captures
    ensures r.previousTurn == s.previousTurn && r.hasGame == s.hasGame && r.nextId == s.nextId
    ensures IsKind(s, p, King) ==> r.kings == s.kings[s.store[p.value].faction := (x, y)]
    ensures !IsKind(s, p, King) ==> r.kings == s.kings
    ensures WellFormed(s) ==> WellFormed(r)
  {
    if IsKind(s, p, King) then s.(kings := s.kings[s.store[p.value].faction := (x, y)]) else s
  }

  /** `place`: the only write to the grid, the positions and the king cache. */
  function Place(s: BoardState, p: Option<PieceId>, x: int, y: int): (r: BoardState)
    requires WellFormed(s) && InBounds((x, y)) && (p.Some? ==> p.value in s.store)
    ensures WellFormed(r) && Extends(s, r) && r.store.Keys == s.store.Keys
    ensures r.captures == s.captures && r.previousTurn == s.previousTurn
    ensures r.hasGame == s.hasGame && r.nextId == s.nextId
    ensures Get(r, x, y) == p
    ensures forall a, b :: InBounds((a, b)) && (a, b) != (x, y) ==> Get(r, a, b) == Get(s, a, b)
    ensures forall z :: z in r.inPlay <==> (z in s.inPlay || p == Some(z)) && Get(s, x, y) != Some(z)
    ensures p.Some? ==> r.store[p.value] == s.store[p.value].(position := (x, y))
    ensures forall id :: id in s.store && p != Some(id) ==> r.store[id] == s.store[id]
    ensures IsKind(s, p, King) ==> r.kings == s.kings[s.store[p.value].faction := (x, y)]
    ensures !IsKind(s, p, King) ==> r.kings == s.kings
  {
    var s1 := UpdatePieces(s, p, x, y);
    var s2 := Reposition(s1, p, x, y);
    var s3 := CacheKing(s2, p, x, y);
    WithCell(s3, x, y, p)
  }

  // ---------------------------------------------------------------------
  // Capture accounting
  // ---------------------------------------------------------------------

  /** `captures[f] << q`. */
  function Capture(s: BoardState, f: Faction, q: Option<PieceId>): (r: BoardState)
    ensures WellFormed(s) ==> WellFormed(r) && Extends(s, r)
    ensures r.grid == s.grid && r.store == s.store && r.inPlay == s.inPlay && r.kings == s.kings
    ensures r.previousTurn == s.previousTurn && r.hasGame == s.hasGame && r.nextId == s.nextId
    ensures CapturesOf(r, f) == CapturesOf(s, f) + [q]
    ensures forall g :: g != f ==> CapturesOf(r, g) == CapturesOf(s, g)
  {
    s.(captures := s.captures[f := CapturesOf(s, f) + [q]])
  }

  /** `en_passant?`: a Pawn set onto its own en-passant target cell. */
  predicate EnPassantQ(s: BoardState, p: Option<PieceId>, x: int, y: int) {
    IsKind(s, p, Pawn) && s.store[p.value].enPassantCell == Some((x, y))
  }

  /** `ordinary_capture`: file the old occupant under the mover's faction. */
  function OrdinaryCapture(s: BoardState, p: Option<PieceId>, x: int, y: int): (r: BoardState)
    requires WellFormed(s) && InBounds((x, y)) && (p.Some? ==> p.value in s.store)
    ensures WellFormed(r) && Extends(s, r)
    ensures r.grid == s.grid && r.store == s.store && r.inPlay == s.inPlay && r.kings == s.kings
    ensures r.previousTurn == s.previousTurn && r.hasGame == s.hasGame && r.nextId == s.nextId
    ensures p.None? || Get(s, x, y).None? ==> r == s
    ensures p.Some? && Get(s, x, y).Some? ==>
      && CapturesOf(r, s.store[p.value].faction) == CapturesOf(s, s.store[p.value].faction) + [Get(s, x, y)]
      && forall g :: g != s.store[p.value].faction ==> CapturesOf(r, g) == CapturesOf(s, g)
  {
    if p.None? || Get(s, x, y).None? then s
    else Capture(s, s.store[p.value].faction, Get(s, x, y))
  }

  /** The cell a Pawn captures on when it lands on its en-passant cell. */
  function CaptureCell(s: BoardState, p: Option<PieceId>): (c: Cell)
    requires WellFormed(s) && p.Some? && p.value in s.store && s.store[p.value].enPassantCell.Some?
    ensures InBounds(c)
  {
    s.store[p.value].enPassantCaptureCell.value
  }

  /** `en_passant_capture`: file whatever stands on the capture cell, then clear that cell. */
  function EnPassantCapture(s: BoardState, p: Option<PieceId>, x: int, y: int): (r: BoardState)
    requires WellFormed(s) && EnPassantQ(s, p, x, y)
    ensures WellFormed(r) && Extends(s, r) && r.store.Keys == s.store.Keys
    ensures r.previousTurn == s.previousTurn && r.hasGame == s.hasGame && r.nextId == s.nextId
    ensures
      var c := CaptureCell(s, p);
      var f := s.store[p.value].faction;
      && CapturesOf(r, f) == CapturesOf(s, f) + [Get(s, c.0, c.1)]
      && (forall g :: g != f ==> CapturesOf(r, g) == CapturesOf(s, g))
      && Get(r, c.0, c.1) == None
      && (forall a, b :: InBounds((a, b)) && (a, b) != c ==> Get(r, a, b) == Get(s, a, b))
      && (forall z :: z in r.inPlay <==> z in s.inPlay && Get(s, c.0, c.1) != Some(z))
  {
    var c := CaptureCell(s, p);
    Place(Capture(s, s.store[p.value].faction, Get(s, c.0, c.1)), None, c.0, c.1)
  }

  /** `update_captures`. */
  function UpdateCaptures(s: BoardState, p: Option<PieceId>, x: int, y: int): (r: BoardState)
    requires WellFormed(s) && InBounds((x, y)) && (p.Some? ==> p.value in s.store)
    ensures WellFormed(r) && Extends(s, r) && r.store.Keys == s.store.Keys
    ensures r.previousTurn == s.previousTurn && r.hasGame == s.hasGame && r.nextId == s.nextId
    ensures !EnPassantQ(s, p, x, y) ==> r == OrdinaryCapture(s, p, x, y)
  {
    if EnPassantQ(s, p, x, y) then EnPassantCapture(s, p, x, y)
    else OrdinaryCapture(s, p, x, y)
  }

  // ---------------------------------------------------------------------
  // Promotion
  // ---------------------------------------------------------------------

  /** `pawn_promotion?`: a Pawn set on rank 1 or 8. */
  predicate PawnPromotionQ(s: BoardState, p: Option<PieceId>, x: int, y: int) {
    IsKind(s, p, Pawn) && (y == 1 || y == 8)
  }

  /** `choose_promotion`: nil without a game, otherwise the player's answer. */
  function ChoosePromotion(s: BoardState, answer: string): Option<string> {
    if !s.hasGame then None else Some(answer)
  }

  /** The class `promote_to` constructs: Queen unless the selection is r, b or n. */
  function PromotionKind(selection: Option<string>): Kind {
    if selection == Some("r") then Rook
    else if selection == Some("b") then Bishop
    else if selection == Some("n") then Knight
    else Queen
  }

  /** 1 for a Pawn, whose placement may construct one more piece; 0 otherwise. */
  function KindRank(k: Kind): nat {
    if k == Pawn then 1 else 0
  }

  function SetRank(s: BoardState, p: Option<PieceId>): nat {
    if IsKind(s, p, Pawn) then 1 else 0
  }

  /** `handle_promotion`: clear the cell and construct the replacement there. */
  function HandlePromotion(s: BoardState, p: Option<PieceId>, x: int, y: int, answer: string): (r: BoardState)
    requires WellFormed(s) && InBounds((x, y)) && (p.Some? ==> p.value in s.store)
    ensures WellFormed(r) && Extends(s, r)
    ensures r.previousTurn == s.previousTurn && r.hasGame == s.hasGame
    ensures !PawnPromotionQ(s, p, x, y) ==> r == s
    ensures r.captures == s.captures
    ensures PawnPromotionQ(s, p, x, y) ==> Get(r, x, y).Some? && forall a, b :: InBounds((a, b)) && (a, b) != (x, y) ==> Get(r, a, b) == Get(s, a, b)
    decreases SetRank(s, p), 1
  {
    if PawnPromotionQ(s, p, x, y) then
      PromoteTo(Place(s, None, x, y), ChoosePromotion(s, answer), s.store[p.value].faction, x, y, answer)
    else s
  }

  /** `promote_to`: exactly one replacement piece is constructed. */
  function PromoteTo(s: BoardState, selection: Option<string>, faction: Faction, x: int, y: int, answer: string): (r: BoardState)
    requires WellFormed(s) && InBounds((x, y))
    ensures WellFormed(r) && Extends(s, r)
    ensures r.previousTurn == s.previousTurn && r.hasGame == s.hasGame
    ensures Get(r, x, y).Some? && forall a, b :: InBounds((a, b)) && (a, b) != (x, y) ==> Get(r, a, b) == Get(s, a, b)
    ensures Get(s, x, y).None? ==> r.captures == s.captures
    decreases 1, 0
  {
    NewPiece(s, PromotionKind(selection), faction, x, y, false, answer).0
  }

  // ---------------------------------------------------------------------
  // Piece construction (lib/pieces/piece.rb, initialize)
  // ---------------------------------------------------------------------

  /** A new piece object with the next id, not yet on the grid. */
  function Allocate(s: BoardState, kind: Kind, faction: Faction, x: int, y: int, moved: bool): (r: BoardState)
    requires WellFormed(s) && InBounds((x, y))
    ensures WellFormed(r) && Extends(s, r)
    ensures r.store == s.store[s.nextId := Fresh(kind, faction, (x, y), moved)] && r.nextId == s.nextId + 1
    ensures r.grid == s.grid && r.inPlay == s.inPlay && r.captures == s.captures && r.kings == s.kings
    ensures r.previousTurn == s.previousTurn && r.hasGame == s.hasGame
  {
    s.(store := s.store[s.nextId := Fresh(kind, faction, (x, y), moved)], nextId := s.nextId + 1)
  }

  /**
   * `Piece.new(board, faction, x, y, moved)`: a fresh piece object that sets
   * itself onto the board. Returns the board and the new piece's id.
   */
  function NewPiece(s: BoardState, kind: Kind, faction: Faction, x: int, y: int, moved: bool, answer: string): (r: (BoardState, PieceId))
    requires WellFormed(s) && InBounds((x, y))
    ensures WellFormed(r.0) && Extends(s, r.0)
    ensures r.1 == s.nextId && r.1 in r.0.store && r.1 !in s.store
    ensures r.0.store[r.1].kind == kind && r.0.store[r.1].faction == faction && r.0.store[r.1].moved == moved
    ensures r.0.previousTurn == s.previousTurn && r.0.hasGame == s.hasGame
    ensures Get(r.0, x, y).Some? && forall a, b :: InBounds((a, b)) && (a, b) != (x, y) ==> Get(r.0, a, b) == Get(s, a, b)
    ensures Get(s, x, y).None? ==> r.0.captures == s.captures
    decreases KindRank(kind), 3
  {
    var s1 := Allocate(s, kind, faction, x, y, moved);
    var r := Set(s1, Some(s.nextId), x, y, answer);
    ExtendsTransitive(s, s1, r);
    (r, s.nextId)
  }

  // ---------------------------------------------------------------------
  // Castling
  // ---------------------------------------------------------------------

  /** `castling?`: a King set onto one of its castling cells. */
  predicate CastlingQ(s: BoardState, p: Option<PieceId>, x: int, y: int) {
    && IsKind(s, p, King)
    && |s.store[p.value].castlingCells| > 0
    && (x, y) in s.store[p.value].castlingCells
  }

  /** `move_rook`: lift whatever stands on the rook's home cell and place it on its post-castling cell. */
  function MoveRook(s: BoardState, y: int, rookX1: int, rookX2: int): (r: BoardState)
    requires WellFormed(s) && InBounds((rookX1, y)) && InBounds((rookX2, y))
    ensures WellFormed(r) && Extends(s, r) && r.store.Keys == s.store.Keys
    ensures r.previousTurn == s.previousTurn && r.hasGame == s.hasGame && r.nextId == s.nextId
    ensures r.captures == s.captures
    ensures Get(r, rookX2, y) == Get(s, rookX1, y)
    ensures rookX1 != rookX2 ==> Get(r, rookX1, y) == None
    ensures forall a, b :: InBounds((a, b)) && (a, b) != (rookX1, y) && (a, b) != (rookX2, y) ==> Get(r, a, b) == Get(s, a, b)
  {
    var rook := Get(s, rookX1, y);
    Place(Place(s, None, rookX1, y), rook, rookX2, y)
  }

  /** `handle_castling`: the king-side rook for x = 7, the queen-side one for x = 3. */
  function HandleCastling(s: BoardState, p: Option<PieceId>, x: int, y: int): (r: BoardState)
    requires WellFormed(s) && InBounds((x, y))
    ensures WellFormed(r) && Extends(s, r) && r.store.Keys == s.store.Keys
    ensures r.previousTurn == s.previousTurn && r.hasGame == s.hasGame && r.nextId == s.nextId
    ensures !CastlingQ(s, p, x, y) ==> r == s
    ensures r.captures == s.captures
  {
    if CastlingQ(s, p, x, y) then
      if x == 7 then MoveRook(s, y, 8, 6)
      else if x == 3 then MoveRook(s, y, 1, 4)
      else s
    else s
  }

  // ---------------------------------------------------------------------
  // The mutation path
  // ---------------------------------------------------------------------

  /** `set(piece, x, y)`: captures, placement, promotion, castling, in that order. */
  function Set(s: BoardState, p: Option<PieceId>, x: int, y: int, answer: string): (r: BoardState)
    requires WellFormed(s) && InBounds((x, y)) && (p.Some? ==> p.value in s.store)
    ensures WellFormed(r) && Extends(s, r)
    ensures r.previousTurn == s.previousTurn && r.hasGame == s.hasGame
    ensures !EnPassantQ(s, p, x, y) ==> r.captures == OrdinaryCapture(s, p, x, y).captures
    ensures p.Some? && !EnPassantQ(s, p, x, y) && !CastlingQ(s, p, x, y) ==>
      Get(r, x, y).Some? && forall a, b :: InBounds((a, b)) && (a, b) != (x, y) ==> Get(r, a, b) == Get(s, a, b)
    decreases SetRank(s, p), 2
  {
    var s1 := UpdateCaptures(s, p, x, y);
    var s2 := Place(s1, p, x, y);
    var s3 := HandlePromotion(s2, p, x, y, answer);
    var r := HandleCastling(s3, p, x, y);
    ExtendsTransitive(s, s1, s2);
    ExtendsTransitive(s, s2, s3);
    ExtendsTransitive(s, s3, r);
    assert p.Some? && !CastlingQ(s, p, x, y) ==> !CastlingQ(s3, p, x, y) by {
      if p.Some? { assert SameIdentity(s.store[p.value], s3.store[p.value]); }
    }
    r
  }

  /** Clear the en-passant cell of every Pawn among `ids`, one after the other. */
  function ClearEnPassant(store: map<PieceId, Piece>, ids: seq<PieceId>): (r: map<PieceId, Piece>)
    requires forall id :: id in ids ==> id in store
    ensures r.Keys == store.Keys
    ensures forall k :: k in store ==>
      r[k] == if k in ids && store[k].kind == Pawn then store[k].(enPassantCell := None) else store[k]
    decreases |ids|
  {
    if ids == [] then store
    else
      var id := ids[0];
      var next := if store[id].kind == Pawn then store[id := store[id].(enPassantCell := None)] else store;
      ClearEnPassant(next, ids[1..])
  }

  /** `disable_en_passant`: every Pawn in play loses its en-passant target cell. */
  function DisableEnPassant(s: BoardState): (r: BoardState)
    requires WellFormed(s)
    ensures WellFormed(r) && Extends(s, r) && r.store.Keys == s.store.Keys
    ensures r.grid == s.grid && r.inPlay == s.inPlay && r.captures == s.captures && r.kings == s.kings
    ensures r.previousTurn == s.previousTurn && r.hasGame == s.hasGame && r.nextId == s.nextId
    ensures forall id :: id in s.store ==>
      r.store[id] == if id in s.inPlay && s.store[id].kind == Pawn then s.store[id].(enPassantCell := None) else s.store[id]
  {
    s.(store := ClearEnPassant(s.store, s.inPlay))
  }

  /** `self.previous_turn = faction`. */
  function RecordTurn(s: BoardState, f: Faction): (r: BoardState)
    requires WellFormed(s)
    ensures WellFormed(r) && Extends(s, r)
    ensures r.grid == s.grid && r.store == s.store && r.inPlay == s.inPlay
    ensures r.captures == s.captures && r.kings == s.kings && r.hasGame == s.hasGame && r.nextId == s.nextId
    ensures r.previousTurn == Some(f)
  {
    s.(previousTurn := Some(f))
  }

  /**
   * `move(x1, y1, x2, y2)`: record the mover's faction, lift it, set it on
   * the destination, then reset every pawn's en-passant cell.
   */
  function Move(s: BoardState, x1: int, y1: int, x2: int, y2: int, answer: string): (r: BoardState)
    requires WellFormed(s) && InBounds((x1, y1)) && InBounds((x2, y2)) && Get(s, x1, y1).Some?
    ensures WellFormed(r) && Extends(s, r)
    ensures r.hasGame == s.hasGame
  {
    var piece := Get(s, x1, y1).value;
    var s1 := RecordTurn(s, s.store[piece].faction);
    var s2 := Set(s1, None, x1, y1, answer);
    var s3 := Set(s2, Some(piece), x2, y2, answer);
    var r := DisableEnPassant(s3);
    ExtendsTransitive(s, s1, s2);
    ExtendsTransitive(s, s2, s3);
    ExtendsTransitive(s, s3, r);
    r
  }

  // ---------------------------------------------------------------------
  // Copying
  // ---------------------------------------------------------------------

  /** `copy_to`: a new piece of the same class, faction, position and `moved` flag. */
  function CopyTo(p: Piece, target: BoardState, answer: string): (r: BoardState)
    requires WellFormed(target) && InBounds(p.position)
    ensures WellFormed(r) && Extends(target, r)
    ensures r.previousTurn == target.previousTurn && r.hasGame == target.hasGame
    ensures Get(r, p.position.0, p.position.1).Some?
    ensures forall a, b :: InBounds((a, b)) && (a, b) != p.position ==> Get(r, a, b) == Get(target, a, b)
  {
    NewPiece(target, p.kind, p.faction, p.position.0, p.position.1, p.moved, answer).0
  }

  /** The cells the pieces `ids` of `s` stand on. */
  function Positions(s: BoardState, ids: seq<PieceId>): set<Cell>
    requires forall id :: id in ids ==> id in s.store
  {
    set id | id in ids :: s.store[id].position
  }

  lemma PositionsCons(s: BoardState, ids: seq<PieceId>)
    requires ids != [] && forall id :: id in ids ==> id in s.store
    ensures Positions(s, ids) == {s.store[ids[0]].position} + Positions(s, ids[1..])
  {
    assert forall id :: id in ids <==> id == ids[0] || id in ids[1..];
  }

  /** `copy_pieces_to`: copy the pieces `ids` of `s`, in order. */
  function CopyPiecesTo(s: BoardState, ids: seq<PieceId>, target: BoardState): (r: BoardState)
    requires WellFormed(s) && WellFormed(target) && forall id :: id in ids ==> id in s.store
    ensures WellFormed(r)
    ensures r.previousTurn == target.previousTurn && r.hasGame == target.hasGame
    ensures forall a, b :: InBounds((a, b)) ==>
      (Get(r, a, b).Some? <==> Get(target, a, b).Some? || (a, b) in Positions(s, ids))
    decreases |ids|
  {
    if ids == [] then target
    else
      var pos := s.store[ids[0]].position;
      var t := CopyTo(s.store[ids[0]], target, "");  // the copy has no game, so the answer is never read
      var r := CopyPiecesTo(s, ids[1..], t);
      PositionsCons(s, ids);
      assert forall a, b :: InBounds((a, b)) ==>
        (Get(r, a, b).Some? <==> Get(target, a, b).Some? || (a, b) in Positions(s, ids)) by {
        forall a, b | InBounds((a, b))
          ensures Get(r, a, b).Some? <==> Get(target, a, b).Some? || (a, b) in Positions(s, ids)
        {
          if (a, b) != pos {
            assert Get(t, a, b) == Get(target, a, b);
          }
        }
      }
      r
  }

  /**
   * `copy`: a board without a game holding copies of the live pieces, with
   * the same previous turn; a cell of the copy is occupied exactly when a
   * live piece of the original stands there.
   */
  function Copy(s: BoardState): (r: BoardState)
    requires WellFormed(s)
    ensures WellFormed(r) && !r.hasGame && r.previousTurn == s.previousTurn
    ensures forall a, b :: InBounds((a, b)) ==> (Get(r, a, b).Some? <==> (a, b) in Positions(s, s.inPlay))
  {
    CopyPiecesTo(s, s.inPlay, NewBoard(false)).(previousTurn := s.previousTurn)
  }

  // ---------------------------------------------------------------------
  // Faction queries
  // ---------------------------------------------------------------------

  /** The pieces of `ids` whose faction is (`same`) or is not (`!same`) `f`, in order. */
  function SelectFaction(s: BoardState, ids: seq<PieceId>, f: Faction, same: bool): (r: seq<PieceId>)
    requires forall id :: id in ids ==> id in s.store
    ensures forall id :: id in r <==> id in ids && (s.store[id].faction == f) == same
    decreases |ids|
  {
    if ids == [] then []
    else (if (s.store[ids[0]].faction == f) == same then [ids[0]] else []) + SelectFaction(s, ids[1..], f, same)
  }

  /** `enemies(faction)`: the live pieces of the other faction. */
  function Enemies(s: BoardState, f: Faction): (r: seq<PieceId>)
    requires WellFormed(s)
    ensures forall id :: id in r <==> id in s.inPlay && s.store[id].faction != f
  {
    SelectFaction(s, s.inPlay, f, false)
  }

  /** `friendlies(faction)`: the live pieces of the faction. */
  function Friendlies(s: BoardState, f: Faction): (r: seq<PieceId>)
    requires WellFormed(s)
    ensures forall id :: id in r <==> id in s.inPlay && s.store[id].faction == f
  {
    SelectFaction(s, s.inPlay, f, true)
  }

  /** The union of the candidate moves of `ids`. */
  function MovesOf(s: BoardState, ids: seq<PieceId>, gen: Generator): set<Cell>
    decreases |ids|
  {
    if ids == [] then {} else (set c | c in gen(s, ids[0])) + MovesOf(s, ids[1..], gen)
  }

  /** `enemy_moves(faction)`: raw candidates, never safety-filtered. */
  function EnemyMoves(s: BoardState, f: Faction, gen: Generator): set<Cell>
    requires WellFormed(s)
  {
    MovesOf(s, Enemies(s, f), gen)
  }

  /** `checked?(faction)`: the cached king cell is among the enemy candidates. */
  predicate Checked(s: BoardState, f: Faction, gen: Generator)
    requires WellFormed(s)
  {
    f in s.kings && s.kings[f] in EnemyMoves(s, f, gen)
  }

  // ---------------------------------------------------------------------
  // Simulation
  // ---------------------------------------------------------------------

  /**
   * `simulation`: play the move on a copy and ask whether the mover's
   * faction is in check there.
   */
  predicate Simulation(s: BoardState, id: PieceId, x: int, y: int, gen: Generator)
    requires WellFormed(s) && id in s.inPlay && InBounds((x, y))
  {
    var pos := s.store[id].position;
    var copy := Copy(s);
    assert pos in Positions(s, s.inPlay);
    // The copy has no game, so the promotion answer is never read.
    !Checked(Move(copy, pos.0, pos.1, x, y, ""), s.store[id].faction, gen)
  }

  /**
   * `simulate_castling`: the king's current cell, the cell it passes and the
   * destination must all be unattacked.
   */
  predicate SimulateCastling(s: BoardState, id: PieceId, x: int, y: int, gen: Generator)
    requires WellFormed(s) && id in s.inPlay && InBounds((x, y))
  {
    var middle := if x == 7 then (6, y) else (4, y);
    var notChecked := !Checked(s, s.store[id].faction, gen);
    var middleNotChecked := Simulation(s, id, middle.0, middle.1, gen);
    var destinationNotChecked := Simulation(s, id, x, y, gen);
    notChecked && middleNotChecked && destinationNotChecked
  }

  /** `simulate_move`. */
  predicate SimulateMove(s: BoardState, id: PieceId, x: int, y: int, gen: Generator)
    requires WellFormed(s) && id in s.inPlay && InBounds((x, y))
  {
    if CastlingQ(s, Some(id), x, y) then SimulateCastling(s, id, x, y, gen)
    else Simulation(s, id, x, y, gen)
  }

  // ---------------------------------------------------------------------
  // Piece queries of lib/pieces/piece.rb that need the board
  // ---------------------------------------------------------------------

  /** Ruby's `select`: the entries of `cands` that satisfy `keep`, in their order. */
  function Select(cands: seq<Cell>, keep: Cell -> bool): seq<Cell>
    decreases |cands|
  {
    if cands == [] then []
    else (if keep(cands[0]) then [cands[0]] else []) + Select(cands[1..], keep)
  }

  /** The block of `safe_moves`: a cell passes when `simulate_move` accepts it. */
  function SafeTest(s: BoardState, id: PieceId, gen: Generator): Cell -> bool
    requires WellFormed(s) && id in s.inPlay
  {
    c => SafeCell(s, id, gen, c)
  }

  /** A cell passes the block of `safe_moves` when it is on the board and `simulate_move` accepts it. */
  predicate SafeCell(s: BoardState, id: PieceId, gen: Generator, c: Cell)
    requires WellFormed(s) && id in s.inPlay
  {
    InBounds(c) && SimulateMove(s, id, c.0, c.1, gen)
  }

  /** `safe_moves`: the candidates (`show_legal_moves`) that pass `simulate_move`. */
  function SafeMoves(s: BoardState, id: PieceId, gen: Generator): seq<Cell>
    requires WellFormed(s) && id in s.inPlay && ValidGenerator(gen)
  {
    Select(gen(s, id), SafeTest(s, id, gen))
  }

  /** `friendly?(x, y)`: the cell holds a piece of the same faction. */
  predicate Friendly(s: BoardState, id: PieceId, x: int, y: int)
    requires WellFormed(s) && id in s.store && InBounds((x, y))
  {
    Get(s, x, y).Some? && s.store[Get(s, x, y).value].faction == s.store[id].faction
  }

  /** `enemy?(x, y)`: the cell holds a piece of the other faction. */
  predicate Enemy(s: BoardState, id: PieceId, x: int, y: int)
    requires WellFormed(s) && id in s.store && InBounds((x, y))
  {
    Get(s, x, y).Some? && s.store[Get(s, x, y).value].faction != s.store[id].faction
  }

  /** `self.moved = true`. */
  function MarkMoved(s: BoardState, id: PieceId): BoardState
    requires id in s.store
  {
    s.(store := s.store[id := s.store[id].(moved := true)])
  }

  /** `proceed(x, y)`: mark the piece moved, then move the board from its position. */
  function Proceed(s: BoardState, id: PieceId, x: int, y: int, answer: string): (r: BoardState)
    requires Consistent(s) && id in s.inPlay && InBounds((x, y))
    ensures WellFormed(r)
  {
    var pos := s.store[id].position;
    var s1 := MarkMoved(s, id);
    assert Get(s1, pos.0, pos.1) == Some(id);
    Move(s1, pos.0, pos.1, x, y, answer)
  }

  // ---------------------------------------------------------------------
  // Game-state queries
  // ---------------------------------------------------------------------

  /** `no_moves?`: no friendly piece has a safe move. */
  predicate NoMoves(s: BoardState, f: Faction, gen: Generator)
    requires WellFormed(s) && ValidGenerator(gen)
  {
    var friends := Friendlies(s, f);
    forall i :: 0 <= i < |friends| ==> SafeMoves(s, friends[i], gen) == []
  }

  /**
   * The fold of `available_moves` over `ids`: each piece with a non-empty
   * safe-move list files it under its position, a later piece on the same
   * position overwriting an earlier one.
   */
  function AvailableFrom(ids: seq<PieceId>, position: PieceId -> Cell, safe: PieceId -> seq<Cell>,
                         acc: map<Cell, seq<Cell>>): map<Cell, seq<Cell>>
    decreases |ids|
  {
    if ids == [] then acc
    else
      var moves := safe(ids[0]);
      AvailableFrom(ids[1..], position, safe, if moves == [] then acc else acc[position(ids[0]) := moves])
  }

  /** `available_moves(faction)`: position of each friendly piece with a safe move, to its safe moves. */
  function AvailableMoves(s: BoardState, f: Faction, gen: Generator): map<Cell, seq<Cell>>
    requires WellFormed(s) && ValidGenerator(gen)
  {
    AvailableFrom(Friendlies(s, f), PositionIn(s), SafeMovesIn(s, gen), map[])
  }

  /** The positions of `s`'s pieces as a function (unused for unknown ids). */
  function PositionIn(s: BoardState): PieceId -> Cell {
    id => if id in s.store then s.store[id].position else (0, 0)
  }

  /** `safe_moves` of `s`'s live pieces as a function (empty for the others). */
  function SafeMovesIn(s: BoardState, gen: Generator): PieceId -> seq<Cell>
    requires WellFormed(s) && ValidGenerator(gen)
  {
    id => if id in s.inPlay then SafeMoves(s, id, gen) else []
  }

  /** `checkmate?`. */
  predicate Checkmate(s: BoardState, f: Faction, gen: Generator)
    requires WellFormed(s) && ValidGenerator(gen)
  {
    NoMoves(s, f, gen) && Checked(s, f, gen)
  }

  /** `stalemate?`. */
  predicate Stalemate(s: BoardState, f: Faction, gen: Generator)
    requires WellFormed(s) && ValidGenerator(gen)
  {
    NoMoves(s, f, gen) && !Checked(s, f, gen)
  }

  /** `king_vs_king_and_bishop_or_knight?`. */
  predicate KingVsKingAndBishopOrKnight(s: BoardState)
    requires WellFormed(s)
  {
    && (forall i :: 0 <= i < |s.inPlay| ==> s.store[s.inPlay[i]].kind in {King, Bishop, Knight})
    && |s.inPlay| <= 3
  }

  /** `all_kings_and_bishops?`. */
  predicate AllKingsAndBishops(s: BoardState)
    requires WellFormed(s)
  {
    forall i :: 0 <= i < |s.inPlay| ==> s.store[s.inPlay[i]].kind in {King, Bishop}
  }

  /**
   * Square colour of a cell as the source computes it: whether x + y is even.
   * x is the file and y the rank, so an even sum is a dark square (a1).
   */
  predicate EvenSquare(c: Cell) {
    (c.0 + c.1) % 2 == 0
  }

  /** The square colours of the bishops among `ids`, in iteration order. */
  function BishopColours(s: BoardState, ids: seq<PieceId>): seq<bool>
    requires forall id :: id in ids ==> id in s.store
    decreases |ids|
  {
    if ids == [] then []
    else (if s.store[ids[0]].kind == Bishop then [EvenSquare(s.store[ids[0]].position)] else [])
         + BishopColours(s, ids[1..])
  }

  /**
   * The `all?` loop of `all_bishops_on_same_square_color?`, with `square`
   * the block's captured variable: `square ||= even` replaces a nil or false
   * `square` by the current bishop's colour before comparing.
   */
  function SameColourFrom(colours: seq<bool>, square: Option<bool>): bool
    decreases |colours|
  {
    if colours == [] then true
    else
      var sq := if square == Some(true) then true else colours[0];
      sq == colours[0] && SameColourFrom(colours[1..], Some(sq))
  }

  /** `all_bishops_on_same_square_color?`. */
  predicate AllBishopsOnSameSquareColour(s: BoardState)
    requires WellFormed(s)
  {
    SameColourFrom(BishopColours(s, s.inPlay), None)
  }

  /** `kings_and_bishops_of_same_color_square?`. */
  predicate KingsAndBishopsOfSameColourSquare(s: BoardState)
    requires WellFormed(s)
  {
    AllKingsAndBishops(s) && AllBishopsOnSameSquareColour(s)
  }

  /** `dead_position?`. */
  predicate DeadPosition(s: BoardState)
    requires WellFormed(s)
  {
    KingVsKingAndBishopOrKnight(s) || KingsAndBishopsOfSameColourSquare(s)
  }

  /** `occupied_cells`: the positions of the live pieces, in set order. */
  function OccupiedCells(s: BoardState): seq<Cell>
    requires WellFormed(s)
  {
    seq(|s.inPlay|, i requires 0 <= i < |s.inPlay| => s.store[s.inPlay[i]].position)
  }
}

=== FILE: board_props.dfy ===
/**
 * Frame and effect properties of the board's mutation path (lib/board.rb):
 * what one `set`, `move` or piece construction changes and what it leaves
 * alone. Each effect lemma is assembled from small step lemmas that unfold
 * one operation at a time.
 */
module BoardProps {
  import opened Pieces
  import opened BoardModel

  // ---------------------------------------------------------------------
  // One-step unfoldings
  // ---------------------------------------------------------------------

  /** `set` runs its four steps in order. */
  lemma SetSteps(s: BoardState, p: Option<PieceId>, x: int, y: int, answer: string)
    requires WellFormed(s) && InBounds((x, y)) && (p.Some? ==> p.value in s.store)
    ensures Set(s, p, x, y, answer) ==
      HandleCastling(HandlePromotion(Place(UpdateCaptures(s, p, x, y), p, x, y), p, x, y, answer), p, x, y)
  {
  }

  lemma NotEnPassant(s: BoardState, p: Option<PieceId>, x: int, y: int)
    requires WellFormed(s) && InBounds((x, y)) && (p.Some? ==> p.value in s.store) && !EnPassantQ(s, p, x, y)
    ensures UpdateCaptures(s, p, x, y) == OrdinaryCapture(s, p, x, y)
  {
  }

  lemma NotPromotion(s: BoardState, p: Option<PieceId>, x: int, y: int, answer: string)
    requires WellFormed(s) && InBounds((x, y)) && (p.Some? ==> p.value in s.store) && !PawnPromotionQ(s, p, x, y)
    ensures HandlePromotion(s, p, x, y, answer) == s
  {
  }

  lemma NotCastling(s: BoardState, p: Option<PieceId>, x: int, y: int)
    requires WellFormed(s) && InBounds((x, y)) && !CastlingQ(s, p, x, y)
    ensures HandleCastling(s, p, x, y) == s
  {
  }

  /** A promotion clears the cell and constructs the replacement there. */
  lemma PromotionSteps(s: BoardState, p: Option<PieceId>, x: int, y: int, answer: string)
    requires WellFormed(s) && InBounds((x, y)) && (p.Some? ==> p.value in s.store) && PawnPromotionQ(s, p, x, y)
    ensures HandlePromotion(s, p, x, y, answer) ==
      NewPiece(Place(s, None, x, y), PromotionKind(ChoosePromotion(s, answer)), s.store[p.value].faction, x, y, false, answer).0
  {
  }

  /** Construction allocates the next id and sets the new piece on its cell. */
  lemma NewPieceSteps(s: BoardState, kind: Kind, faction: Faction, x: int, y: int, moved: bool, answer: string)
    requires WellFormed(s) && InBounds((x, y))
    ensures NewPiece(s, kind, faction, x, y, moved, answer) ==
      (Set(Allocate(s, kind, faction, x, y, moved), Some(s.nextId), x, y, answer), s.nextId)
  {
  }

  /** `move` records the turn, sets nil on the origin, sets the piece on the destination, then clears en passant. */
  lemma MoveSteps(s: BoardState, x1: int, y1: int, x2: int, y2: int, answer: string)
    requires WellFormed(s) && InBounds((x1, y1)) && InBounds((x2, y2)) && Get(s, x1, y1).Some?
    ensures var piece := Get(s, x1, y1).value;
      var s2 := Set(RecordTurn(s, s.store[piece].faction), None, x1, y1, answer);
      Move(s, x1, y1, x2, y2, answer) == DisableEnPassant(Set(s2, Some(piece), x2, y2, answer))
  {
  }

  // ---------------------------------------------------------------------
  // set, without en passant, castling or promotion
  // ---------------------------------------------------------------------

  /** With none of the special cases, `set` is an ordinary capture followed by `place`. */
  lemma SetPlain(s: BoardState, p: Option<PieceId>, x: int, y: int, answer: string)
    requires WellFormed(s) && InBounds((x, y)) && (p.Some? ==> p.value in s.store)
    requires !EnPassantQ(s, p, x, y) && !CastlingQ(s, p, x, y) && !PawnPromotionQ(s, p, x, y)
    ensures Set(s, p, x, y, answer) == Place(OrdinaryCapture(s, p, x, y), p, x, y)
  {
    var s2 := Place(OrdinaryCapture(s, p, x, y), p, x, y);
    SetSteps(s, p, x, y, answer);
    NotEnPassant(s, p, x, y);
    assert p.Some? ==> s2.store[p.value].kind == s.store[p.value].kind;
    NotPromotion(s2, p, x, y, answer);
    assert p.Some? ==> s2.store[p.value].castlingCells == s.store[p.value].castlingCells;
    NotCastling(s2, p, x, y);
  }

  /** Setting nil is a plain `place` of nil: the cell is emptied and nothing is captured. */
  lemma SetNil(s: BoardState, x: int, y: int, answer: string)
    requires WellFormed(s) && InBounds((x, y))
    ensures Set(s, None, x, y, answer) == Place(s, None, x, y)
  {
    SetPlain(s, None, x, y, answer);
  }

  // ---------------------------------------------------------------------
  // Capture bookkeeping
  // ---------------------------------------------------------------------

  /** Away from en passant, `set` files captures exactly as `ordinary_capture` does. */
  lemma SetCapturesOrdinarily(s: BoardState, p: Option<PieceId>, x: int, y: int, answer: string)
    requires WellFormed(s) && InBounds((x, y)) && (p.Some? ==> p.value in s.store)
    requires !EnPassantQ(s, p, x, y)
    ensures forall g :: CapturesOf(Set(s, p, x, y, answer), g) == CapturesOf(OrdinaryCapture(s, p, x, y), g)
  {
  }

  /**
   * A `set` that is not an en-passant capture, onto an occupied cell,
   * appends exactly the old occupant to the setter's faction's list and
   * leaves the other faction's list unchanged.
   */
  lemma SetCapturesOccupant(s: BoardState, id: PieceId, x: int, y: int, answer: string)
    requires WellFormed(s) && InBounds((x, y)) && id in s.store && Get(s, x, y).Some?
    requires !EnPassantQ(s, Some(id), x, y)
    ensures var r := Set(s, Some(id), x, y, answer);
      && CapturesOf(r, s.store[id].faction) == CapturesOf(s, s.store[id].faction) + [Get(s, x, y)]
      && forall g :: g != s.store[id].faction ==> CapturesOf(r, g) == CapturesOf(s, g)
  {
    SetCapturesOrdinarily(s, Some(id), x, y, answer);
  }

  /** Setting nil, or setting onto an empty cell, leaves every capture list as it was. */
  lemma SetCapturesNothing(s: BoardState, p: Option<PieceId>, x: int, y: int, answer: string)
    requires WellFormed(s) && InBounds((x, y)) && (p.Some? ==> p.value in s.store)
    requires !EnPassantQ(s, p, x, y) && (p.None? || Get(s, x, y).None?)
    ensures Set(s, p, x, y, answer).captures == s.captures
  {
  }

  /**
   * Setting a piece without en passant appends the old occupant of the
   * cell, if there is one, to the setter's faction's list, and leaves the
   * other faction's list unchanged.
   */
  lemma SetCapturesPiece(s: BoardState, id: PieceId, x: int, y: int, answer: string)
    requires WellFormed(s) && InBounds((x, y)) && id in s.store
    requires !EnPassantQ(s, Some(id), x, y)
    ensures var r := Set(s, Some(id), x, y, answer);
      && CapturesOf(r, s.store[id].faction) ==
           CapturesOf(s, s.store[id].faction) + (if Get(s, x, y).Some? then [Get(s, x, y)] else [])
      && (forall g :: g != s.store[id].faction ==> CapturesOf(r, g) == CapturesOf(s, g))
  {
    SetCapturesOrdinarily(s, Some(id), x, y, answer);
    OrdinaryCaptureLists(s, id, x, y);
  }

  /** `ordinary_capture` of a piece appends the occupant, if any, to the piece's faction's list. */
  lemma OrdinaryCaptureLists(s: BoardState, id: PieceId, x: int, y: int)
    requires WellFormed(s) && InBounds((x, y)) && id in s.store
    ensures var r := OrdinaryCapture(s, Some(id), x, y);
      && CapturesOf(r, s.store[id].faction) ==
           CapturesOf(s, s.store[id].faction) + (if Get(s, x, y).Some? then [Get(s, x, y)] else [])
      && (forall g :: g != s.store[id].faction ==> CapturesOf(r, g) == CapturesOf(s, g))
  {
    if Get(s, x, y).None? {
      assert CapturesOf(s, s.store[id].faction) + [] == CapturesOf(s, s.store[id].faction);
    }
  }

  /** Capture lists only ever grow: every list before a `move` is a prefix of the list after it. */
  lemma MoveCapturesGrow(s: BoardState, x1: int, y1: int, x2: int, y2: int, answer: string)
    requires WellFormed(s) && InBounds((x1, y1)) && InBounds((x2, y2)) && Get(s, x1, y1).Some?
    ensures forall f :: CapturesOf(s, f) <= CapturesOf(Move(s, x1, y1, x2, y2, answer), f)
  {
  }

  /**
   * A Pawn set onto its own en-passant cell (not on rank 1 or 8) files
   * whatever stands on its en-passant capture cell under its faction,
   * empties that cell unless it is the destination, and stands on the
   * destination.
   */
  lemma SetEnPassant(s: BoardState, id: PieceId, x: int, y: int, answer: string)
    requires WellFormed(s) && InBounds((x, y)) && id in s.store && EnPassantQ(s, Some(id), x, y)
    requires y != 1 && y != 8
    ensures var r := Set(s, Some(id), x, y, answer);
      var c := CaptureCell(s, Some(id));
      var f := s.store[id].faction;
      && CapturesOf(r, f) == CapturesOf(s, f) + [Get(s, c.0, c.1)]
      && (forall g :: g != f ==> CapturesOf(r, g) == CapturesOf(s, g))
      && Get(r, x, y) == Some(id)
      && (c != (x, y) ==> Get(r, c.0, c.1) == None)
      && (forall z :: z in r.inPlay <==>
            ((z in s.inPlay && Get(s, c.0, c.1) != Some(z)) || z == id) && (c != (x, y) ==> Get(s, x, y) != Some(z)))
  {
    EnPassantPlaceCaptures(s, id, x, y);
    EnPassantPlaceCells(s, id, x, y);
    EnPassantSteps(s, id, x, y, answer);
  }

  /** The capture bookkeeping of the en-passant capture followed by `place`. */
  lemma EnPassantPlaceCaptures(s: BoardState, id: PieceId, x: int, y: int)
    requires WellFormed(s) && InBounds((x, y)) && id in s.store && EnPassantQ(s, Some(id), x, y)
    ensures var r := Place(EnPassantCapture(s, Some(id), x, y), Some(id), x, y);
      var c := CaptureCell(s, Some(id));
      var f := s.store[id].faction;
      && CapturesOf(r, f) == CapturesOf(s, f) + [Get(s, c.0, c.1)]
      && (forall g :: g != f ==> CapturesOf(r, g) == CapturesOf(s, g))
  {
  }

  /** The grid effect of the en-passant capture followed by `place`. */
  lemma EnPassantPlaceCells(s: BoardState, id: PieceId, x: int, y: int)
    requires WellFormed(s) && InBounds((x, y)) && id in s.store && EnPassantQ(s, Some(id), x, y)
    ensures var r := Place(EnPassantCapture(s, Some(id), x, y), Some(id), x, y);
      var c := CaptureCell(s, Some(id));
      && Get(r, x, y) == Some(id)
      && (c != (x, y) ==> Get(r, c.0, c.1) == None)
  {
  }

  /** An en-passant `set` away from the last ranks is the en-passant capture followed by `place`. */
  lemma EnPassantSteps(s: BoardState, id: PieceId, x: int, y: int, answer: string)
    requires WellFormed(s) && InBounds((x, y)) && id in s.store && EnPassantQ(s, Some(id), x, y)
    requires y != 1 && y != 8
    ensures Set(s, Some(id), x, y, answer) == Place(EnPassantCapture(s, Some(id), x, y), Some(id), x, y)
  {
    var s1 := EnPassantCapture(s, Some(id), x, y);
    var s2 := Place(s1, Some(id), x, y);
    SetSteps(s, Some(id), x, y, answer);
    assert UpdateCaptures(s, Some(id), x, y) == s1;
    assert s2.store[id].kind == Pawn;
    NotPromotion(s2, Some(id), x, y, answer);
    NotCastling(s2, Some(id), x, y);
  }

  // ---------------------------------------------------------------------
  // Piece construction (lib/pieces/piece.rb, initialize)
  // ---------------------------------------------------------------------

  /**
   * A constructed piece (other than a Pawn on rank 1 or 8, which promotes at
   * once) ends up on its cell, in `pieces_in_play`, at position [x, y], with
   * the next id; exactly one piece object is created and the old occupant
   * of the cell, if any, leaves `pieces_in_play`.
   */
  lemma NewPieceEffect(s: BoardState, kind: Kind, faction: Faction, x: int, y: int, moved: bool, answer: string)
    requires WellFormed(s) && InBounds((x, y)) && !(kind == Pawn && (y == 1 || y == 8))
    ensures var r := NewPiece(s, kind, faction, x, y, moved, answer);
      && r.1 == s.nextId && r.0.nextId == s.nextId + 1
      && Get(r.0, x, y) == Some(r.1)
      && r.0.store[r.1] == Fresh(kind, faction, (x, y), moved)
      && (forall z :: z in r.0.inPlay <==> (z in s.inPlay || z == r.1) && Get(s, x, y) != Some(z))
      && (forall a, b :: InBounds((a, b)) && (a, b) != (x, y) ==> Get(r.0, a, b) == Get(s, a, b))
  {
    var a := Allocate(s, kind, faction, x, y, moved);
    NewPieceSteps(s, kind, faction, x, y, moved, answer);
    SetPlain(a, Some(s.nextId), x, y, answer);
  }

  /**
   * Constructing a piece (other than a Pawn on rank 1 or 8) leaves every
   * existing piece object as it was and caches the new piece's cell as its
   * faction's king cell exactly when it is a King.
   */
  lemma NewPieceFrame(s: BoardState, kind: Kind, faction: Faction, x: int, y: int, moved: bool, answer: string)
    requires WellFormed(s) && InBounds((x, y)) && !(kind == Pawn && (y == 1 || y == 8))
    ensures var r := NewPiece(s, kind, faction, x, y, moved, answer).0;
      && (forall id :: id in s.store ==> r.store[id] == s.store[id])
      && r.kings == (if kind == King then s.kings[faction := (x, y)] else s.kings)
  {
    var a := Allocate(s, kind, faction, x, y, moved);
    var c := OrdinaryCapture(a, Some(s.nextId), x, y);
    PlaceFrame(c, s.nextId, x, y, s.store);
    NewPieceSteps(s, kind, faction, x, y, moved, answer);
    SetPlain(a, Some(s.nextId), x, y, answer);
    assert NewPiece(s, kind, faction, x, y, moved, answer).0 == Place(c, Some(s.nextId), x, y);
  }

  /** `place` of a piece leaves every other piece object as it was. */
  lemma PlaceFrame(c: BoardState, id: PieceId, x: int, y: int, old_store: map<PieceId, Piece>)
    requires WellFormed(c) && InBounds((x, y)) && id in c.store
    requires forall k :: k in old_store ==> k in c.store && k != id && c.store[k] == old_store[k]
    ensures var r := Place(c, Some(id), x, y);
      && (forall k :: k in old_store ==> r.store[k] == old_store[k])
      && r.kings == (if c.store[id].kind == King then c.kings[c.store[id].faction := (x, y)] else c.kings)
  {
  }

  // ---------------------------------------------------------------------
  // Promotion
  // ---------------------------------------------------------------------

  /** `promote_to` never constructs a Pawn. */
  lemma PromotionKindNotPawn(selection: Option<string>)
    ensures PromotionKind(selection) != Pawn
  {
  }

  /**
   * `handle_promotion` for a Pawn standing on rank 1 or 8: the pawn is
   * replaced on its cell by one new piece of its faction, of the class the
   * selection names; the pawn leaves `pieces_in_play` and the new piece
   * enters it.
   */
  lemma HandlePromotionEffect(s: BoardState, id: PieceId, x: int, y: int, answer: string)
    requires WellFormed(s) && InBounds((x, y)) && Get(s, x, y) == Some(id) && PawnPromotionQ(s, Some(id), x, y)
    ensures var r := HandlePromotion(s, Some(id), x, y, answer);
      && r.nextId == s.nextId + 1
      && Get(r, x, y) == Some(s.nextId)
      && r.store[s.nextId] == Fresh(PromotionKind(ChoosePromotion(s, answer)), s.store[id].faction, (x, y), false)
      && s.nextId in r.inPlay && id !in r.inPlay
  {
    var s1 := Place(s, None, x, y);
    var k := PromotionKind(ChoosePromotion(s, answer));
    PromotionKindNotPawn(ChoosePromotion(s, answer));
    PromotionSteps(s, Some(id), x, y, answer);
    NewPieceEffect(s1, k, s.store[id].faction, x, y, false, answer);
  }

  /**
   * A Pawn set on rank 1 or 8 is replaced on its cell by one new piece of
   * its faction, of the class the selection names (Queen by default, and
   * when there is no game); exactly one piece is created and the pawn
   * leaves `pieces_in_play`.
   */
  lemma PromotionEffect(s: BoardState, id: PieceId, x: int, y: int, answer: string)
    requires WellFormed(s) && InBounds((x, y)) && id in s.store && PawnPromotionQ(s, Some(id), x, y)
    ensures var r := Set(s, Some(id), x, y, answer);
      && r.nextId == s.nextId + 1
      && Get(r, x, y) == Some(s.nextId)
      && r.store[s.nextId].kind == PromotionKind(ChoosePromotion(s, answer))
      && r.store[s.nextId].faction == s.store[id].faction
      && s.nextId in r.inPlay && id !in r.inPlay
  {
    var s2 := Place(UpdateCaptures(s, Some(id), x, y), Some(id), x, y);
    var s3 := HandlePromotion(s2, Some(id), x, y, answer);
    assert s2.store[id].kind == Pawn && s2.store[id].faction == s.store[id].faction;
    SetSteps(s, Some(id), x, y, answer);
    HandlePromotionEffect(s2, id, x, y, answer);
    assert s3.store[id].kind == Pawn;
    NotCastling(s3, Some(id), x, y);
  }

  // ---------------------------------------------------------------------
  // Castling
  // ---------------------------------------------------------------------

  /**
   * `handle_castling` for a King set onto one of its castling cells: the
   * piece on the rook's home cell (file 8 for x = 7, file 1 for x = 3)
   * moves to file 6 or 4 of the same rank, its home cell becomes empty, and
   * no other cell changes.
   */
  lemma HandleCastlingEffect(s: BoardState, id: PieceId, x: int, y: int)
    requires WellFormed(s) && InBounds((x, y)) && id in s.store && CastlingQ(s, Some(id), x, y)
    requires x == 7 || x == 3
    ensures var r := HandleCastling(s, Some(id), x, y);
      var rookFrom := if x == 7 then 8 else 1;
      var rookTo := if x == 7 then 6 else 4;
      && Get(r, rookTo, y) == Get(s, rookFrom, y)
      && Get(r, rookFrom, y) == None
      && (forall a, b :: InBounds((a, b)) && (a, b) != (rookFrom, y) && (a, b) != (rookTo, y) ==> Get(r, a, b) == Get(s, a, b))
      && (forall z :: z in r.inPlay <==> (z in s.inPlay || Get(s, rookFrom, y) == Some(z)) && Get(s, rookTo, y) != Some(z))
      && r.captures == s.captures
  {
  }

  /** For a King, `set` is an ordinary capture, `place`, then `handle_castling`. */
  lemma KingSetSteps(s: BoardState, id: PieceId, x: int, y: int, answer: string)
    requires WellFormed(s) && InBounds((x, y)) && IsKind(s, Some(id), King)
    ensures Set(s, Some(id), x, y, answer) ==
      HandleCastling(Place(OrdinaryCapture(s, Some(id), x, y), Some(id), x, y), Some(id), x, y)
  {
    SetSteps(s, Some(id), x, y, answer);
    NotEnPassant(s, Some(id), x, y);
    var s2 := Place(OrdinaryCapture(s, Some(id), x, y), Some(id), x, y);
    assert s2.store[id].kind == King;
    NotPromotion(s2, Some(id), x, y, answer);
  }

  /**
   * An ordinary capture followed by `place`: the piece stands on (x, y) at
   * its new position, no other cell changes, and the occupant, if any,
   * leaves `pieces_in_play`.
   */
  lemma CaptureAndPlace(s: BoardState, id: PieceId, x: int, y: int)
    requires WellFormed(s) && InBounds((x, y)) && id in s.store
    ensures var r := Place(OrdinaryCapture(s, Some(id), x, y), Some(id), x, y);
      && WellFormed(r)
      && id in r.store && r.store[id] == s.store[id].(position := (x, y))
      && Get(r, x, y) == Some(id)
      && (forall a, b :: InBounds((a, b)) && (a, b) != (x, y) ==> Get(r, a, b) == Get(s, a, b))
      && (forall z :: z in r.inPlay <==> (z in s.inPlay || z == id) && Get(s, x, y) != Some(z))
  {
    var s1 := OrdinaryCapture(s, Some(id), x, y);
    assert Get(s1, x, y) == Get(s, x, y);
    assert forall a, b :: InBounds((a, b)) ==> Get(s1, a, b) == Get(s, a, b);
  }

  /**
   * Setting a King onto a castling cell at x = 7 or x = 3 leaves the King
   * there and relocates the rook as `handle_castling` does; no other cell
   * changes. The occupants of (x, y) and of the rook's destination leave
   * play, and the rook stays in play. The capture lists are those of an
   * ordinary capture, as `SetCapturesPiece` states for every `set` that is
   * not en passant.
   */
  lemma SetCastling(s: BoardState, id: PieceId, x: int, y: int, answer: string)
    requires WellFormed(s) && InBounds((x, y)) && id in s.store && CastlingQ(s, Some(id), x, y)
    requires x == 7 || x == 3
    ensures var r := Set(s, Some(id), x, y, answer);
      var rookFrom := if x == 7 then 8 else 1;
      var rookTo := if x == 7 then 6 else 4;
      && Get(r, x, y) == Some(id)
      && Get(r, rookTo, y) == Get(s, rookFrom, y)
      && Get(r, rookFrom, y) == None
      && (forall a, b :: InBounds((a, b)) && (a, b) != (x, y) && (a, b) != (rookFrom, y) && (a, b) != (rookTo, y) ==>
            Get(r, a, b) == Get(s, a, b))
      && (forall z :: z in r.inPlay <==>
            (((z in s.inPlay || z == id) && Get(s, x, y) != Some(z)) || Get(s, rookFrom, y) == Some(z))
            && Get(s, rookTo, y) != Some(z))
  {
    var s2 := Place(OrdinaryCapture(s, Some(id), x, y), Some(id), x, y);
    var r := Set(s, Some(id), x, y, answer);
    var rookFrom := if x == 7 then 8 else 1;
    var rookTo := if x == 7 then 6 else 4;
    CaptureAndPlace(s, id, x, y);
    KingSetSteps(s, id, x, y, answer);
    HandleCastlingEffect(s2, id, x, y);
    CastlingCompose(s, s2, r, id, x, y, rookFrom, rookTo);
  }

  /** The grid and pieces in play after a placement on (x, y) followed by a rook move on rank y. */
  lemma CastlingCompose(s: BoardState, s2: BoardState, r: BoardState, id: PieceId, x: int, y: int, rookFrom: int, rookTo: int)
    requires WellFormed(s) && WellFormed(s2) && WellFormed(r)
    requires InBounds((x, y)) && InBounds((rookFrom, y)) && InBounds((rookTo, y))
    requires x != rookFrom && x != rookTo && rookFrom != rookTo
    requires Get(s2, x, y) == Some(id)
    requires forall a, b :: InBounds((a, b)) && (a, b) != (x, y) ==> Get(s2, a, b) == Get(s, a, b)
    requires forall z :: z in s2.inPlay <==> (z in s.inPlay || z == id) && Get(s, x, y) != Some(z)
    requires Get(r, rookTo, y) == Get(s2, rookFrom, y) && Get(r, rookFrom, y) == None
    requires forall a, b :: InBounds((a, b)) && (a, b) != (rookFrom, y) && (a, b) != (rookTo, y) ==> Get(r, a, b) == Get(s2, a, b)
    requires forall z :: z in r.inPlay <==> (z in s2.inPlay || Get(s2, rookFrom, y) == Some(z)) && Get(s2, rookTo, y) != Some(z)
    ensures Get(r, x, y) == Some(id)
    ensures Get(r, rookTo, y) == Get(s, rookFrom, y) && Get(r, rookFrom, y) == None
    ensures forall a, b :: InBounds((a, b)) && (a, b) != (x, y) && (a, b) != (rookFrom, y) && (a, b) != (rookTo, y) ==>
      Get(r, a, b) == Get(s, a, b)
    ensures forall z :: z in r.inPlay <==>
      (((z in s.inPlay || z == id) && Get(s, x, y) != Some(z)) || Get(s, rookFrom, y) == Some(z))
      && Get(s, rookTo, y) != Some(z)
  {
    assert Get(s2, rookFrom, y) == Get(s, rookFrom, y);
    assert Get(s2, rookTo, y) == Get(s, rookTo, y);
  }

  // ---------------------------------------------------------------------
  // move
  // ---------------------------------------------------------------------

  /**
   * The first half of `move`: recording the turn and emptying the origin
   * keeps the pieces, empties (x1, y1) only, and takes its piece out of play.
   */
  lemma LiftEffect(s: BoardState, f: Faction, x1: int, y1: int)
    requires WellFormed(s) && InBounds((x1, y1))
    ensures var s2 := Place(RecordTurn(s, f), None, x1, y1);
      && WellFormed(s2)
      && s2.store == s.store
      && s2.previousTurn == Some(f)
      && Get(s2, x1, y1) == None
      && (forall a, b :: InBounds((a, b)) && (a, b) != (x1, y1) ==> Get(s2, a, b) == Get(s, a, b))
      && (forall z :: z in s2.inPlay <==> z in s.inPlay && Get(s, x1, y1) != Some(z))
  {
    var s1 := RecordTurn(s, f);
    assert forall a, b :: InBounds((a, b)) ==> Get(s1, a, b) == Get(s, a, b);
  }

  /** A `move` without en passant, castling or promotion is two plain placements. */
  lemma MovePlainSteps(s: BoardState, x1: int, y1: int, x2: int, y2: int, answer: string)
    requires WellFormed(s) && InBounds((x1, y1)) && InBounds((x2, y2)) && Get(s, x1, y1).Some?
    requires var piece := Get(s, x1, y1);
      !EnPassantQ(s, piece, x2, y2) && !CastlingQ(s, piece, x2, y2) && !PawnPromotionQ(s, piece, x2, y2)
    ensures var piece := Get(s, x1, y1);
      var s2 := Place(RecordTurn(s, s.store[piece.value].faction), None, x1, y1);
      Move(s, x1, y1, x2, y2, answer) == DisableEnPassant(Place(OrdinaryCapture(s2, piece, x2, y2), piece, x2, y2))
  {
    var piece := Get(s, x1, y1);
    var s1 := RecordTurn(s, s.store[piece.value].faction);
    var s2 := Place(s1, None, x1, y1);
    MoveSteps(s, x1, y1, x2, y2, answer);
    SetNil(s1, x1, y1, answer);
    assert s2.store == s.store;
    SetPlain(s2, piece, x2, y2, answer);
  }

  /**
   * The grid and turn effect of a plain `move` between two different cells:
   * the origin is empty, the destination holds the moved piece at its new
   * position, no other cell changes, and the previous turn is the mover's
   * faction.
   */
  lemma MoveEffect(s: BoardState, x1: int, y1: int, x2: int, y2: int, answer: string)
    requires WellFormed(s) && InBounds((x1, y1)) && InBounds((x2, y2)) && Get(s, x1, y1).Some?
    requires (x1, y1) != (x2, y2)
    requires var piece := Get(s, x1, y1);
      !EnPassantQ(s, piece, x2, y2) && !CastlingQ(s, piece, x2, y2) && !PawnPromotionQ(s, piece, x2, y2)
    ensures var piece := Get(s, x1, y1).value;
      var r := Move(s, x1, y1, x2, y2, answer);
      && Get(r, x1, y1) == None
      && Get(r, x2, y2) == Some(piece)
      && r.store[piece].position == (x2, y2)
      && r.previousTurn == Some(s.store[piece].faction)
      && forall a, b :: InBounds((a, b)) && (a, b) != (x1, y1) && (a, b) != (x2, y2) ==> Get(r, a, b) == Get(s, a, b)
  {
    var piece := Get(s, x1, y1).value;
    var s2 := Place(RecordTurn(s, s.store[piece].faction), None, x1, y1);
    LiftEffect(s, s.store[piece].faction, x1, y1);
    CaptureAndPlace(s2, piece, x2, y2);
    MovePlainSteps(s, x1, y1, x2, y2, answer);
  }

  /**
   * `pieces_in_play` after a plain `move`: the moved piece stays in play and
   * the piece captured on the destination, if any, is the only one to leave.
   */
  lemma MoveInPlay(s: BoardState, x1: int, y1: int, x2: int, y2: int, answer: string)
    requires WellFormed(s) && InBounds((x1, y1)) && InBounds((x2, y2)) && Get(s, x1, y1).Some?
    requires (x1, y1) != (x2, y2) && Get(s, x1, y1).value in s.inPlay
    requires var piece := Get(s, x1, y1);
      !EnPassantQ(s, piece, x2, y2) && !CastlingQ(s, piece, x2, y2) && !PawnPromotionQ(s, piece, x2, y2)
    ensures var r := Move(s, x1, y1, x2, y2, answer);
      forall z :: z in r.inPlay <==> z in s.inPlay && Get(s, x2, y2) != Some(z)
  {
    var piece := Get(s, x1, y1).value;
    var s2 := Place(RecordTurn(s, s.store[piece].faction), None, x1, y1);
    var s3 := Place(OrdinaryCapture(s2, Some(piece), x2, y2), Some(piece), x2, y2);
    LiftEffect(s, s.store[piece].faction, x1, y1);
    CaptureAndPlace(s2, piece, x2, y2);
    assert forall z :: z in s3.inPlay <==> z in s.inPlay && Get(s, x2, y2) != Some(z);
    MovePlainSteps(s, x1, y1, x2, y2, answer);
    assert Move(s, x1, y1, x2, y2, answer) == DisableEnPassant(s3);
  }

  /** After any `move`, no Pawn in play keeps an en-passant target cell. */
  lemma MoveClearsEnPassant(s: BoardState, x1: int, y1: int, x2: int, y2: int, answer: string)
    requires WellFormed(s) && InBounds((x1, y1)) && InBounds((x2, y2)) && Get(s, x1, y1).Some?
    ensures var r := Move(s, x1, y1, x2, y2, answer);
      forall id :: id in r.inPlay && r.store[id].kind == Pawn ==> r.store[id].enPassantCell == None
  {
    MoveSteps(s, x1, y1, x2, y2, answer);
  }

  /** `simulation` is a `move` of the piece from its own cell on a copy, which holds a piece there. */
  lemma SimulationSteps(s: BoardState, id: PieceId, x: int, y: int, gen: Generator)
    requires WellFormed(s) && id in s.inPlay && InBounds((x, y))
    ensures var pos := s.store[id].position;
      Get(Copy(s), pos.0, pos.1).Some? &&
      (Simulation(s, id, x, y, gen) <==> !Checked(Move(Copy(s), pos.0, pos.1, x, y, ""), s.store[id].faction, gen))
  {
  }
}

=== FILE: copy_props.dfy ===
/**
 * What `copy` (lib/board.rb:104-114) puts on the new board: `copy_to`
 * rebuilds each live piece with the same class, faction, position and
 * `moved` flag, and placing the rebuilt Kings fills the new board's king
 * cache. A Pawn on rank 1 or 8 would promote while being rebuilt, so the
 * statements about piece contents leave such boards aside.
 */
module CopyProps {
  import opened Pieces
  import opened BoardModel
  import opened BoardProps

  /** A Pawn on rank 1 or 8: constructing it there promotes it at once. */
  predicate Promoting(p: Piece) {
    p.kind == Pawn && (p.position.1 == 1 || p.position.1 == 8)
  }

  /** `id` is a King of faction `f`. */
  predicate KingOf(s: BoardState, id: PieceId, f: Faction) {
    id in s.store && s.store[id].kind == King && s.store[id].faction == f
  }

  /** No live piece would promote while being copied. */
  ghost predicate NoPromotingPawn(s: BoardState)
    requires WellFormed(s)
  {
    forall id :: id in s.inPlay ==> !Promoting(s.store[id])
  }

  /** The pieces `ids` exist in `s` and none of them would promote while being copied. */
  ghost predicate CopySource(s: BoardState, ids: seq<PieceId>) {
    forall id :: id in ids ==> id in s.store && !Promoting(s.store[id])
  }

  /** The tail of a copy source is one, and its head can be copied. */
  lemma CopySourceTail(s: BoardState, ids: seq<PieceId>)
    requires ids != [] && CopySource(s, ids)
    ensures CopySource(s, ids[1..])
    ensures ids[0] in s.store && !Promoting(s.store[ids[0]])
  {
  }

  /**
   * The pieces `ids` of `s` can be rebuilt one after the other on `t`
   * without one landing on another: none promotes, they stand on distinct
   * cells, and those cells are empty on `t`.
   */
  ghost predicate CopyableOnto(s: BoardState, ids: seq<PieceId>, t: BoardState)
    requires WellFormed(s) && WellFormed(t)
  {
    && CopySource(s, ids)
    && (forall i, j :: 0 <= i < j < |ids| ==> s.store[ids[i]].position != s.store[ids[j]].position)
    && (forall id :: id in ids ==> Get(t, s.store[id].position.0, s.store[id].position.1) == None)
  }

  /** `copy_to` onto an empty cell: the rebuilt piece stands there, nothing else moves and nothing is captured. */
  lemma CopyToStep(p: Piece, t: BoardState)
    requires WellFormed(t) && InBounds(p.position) && !Promoting(p)
    requires Get(t, p.position.0, p.position.1) == None
    ensures var r := CopyTo(p, t, "");
      && Get(r, p.position.0, p.position.1) == Some(t.nextId)
      && r.store[t.nextId] == Fresh(p.kind, p.faction, p.position, p.moved)
      && r.captures == t.captures
  {
    NewPieceEffect(t, p.kind, p.faction, p.position.0, p.position.1, p.moved, "");
  }

  /** `p` has been rebuilt on `r`: its cell holds a fresh piece of the same class, faction, position and `moved` flag. */
  ghost predicate CopiedAt(r: BoardState, p: Piece)
    requires WellFormed(r)
  {
    && InBounds(p.position)
    && Get(r, p.position.0, p.position.1).Some?
    && r.store[Get(r, p.position.0, p.position.1).value] == Fresh(p.kind, p.faction, p.position, p.moved)
  }

  /** Distinct cells: the first piece's cell is none of the others'. */
  lemma HeadNotInTail(s: BoardState, ids: seq<PieceId>)
    requires WellFormed(s) && ids != [] && forall id :: id in ids ==> id in s.store
    requires forall i, j :: 0 <= i < j < |ids| ==> s.store[ids[i]].position != s.store[ids[j]].position
    ensures s.store[ids[0]].position !in Positions(s, ids[1..])
  {
    forall j | 0 <= j < |ids[1..]| ensures s.store[ids[1..][j]].position != s.store[ids[0]].position {
      assert ids[1..][j] == ids[j + 1];
    }
  }

  /** After the first piece is copied onto `t1`, the others can still be copied. */
  lemma CopyableOntoTail(s: BoardState, ids: seq<PieceId>, t: BoardState, t1: BoardState)
    requires WellFormed(s) && WellFormed(t) && WellFormed(t1) && ids != [] && CopyableOnto(s, ids, t)
    requires forall a, b :: InBounds((a, b)) && (a, b) != s.store[ids[0]].position ==> Get(t1, a, b) == Get(t, a, b)
    ensures CopyableOnto(s, ids[1..], t1)
  {
    forall id | id in ids[1..]
      ensures Get(t1, s.store[id].position.0, s.store[id].position.1) == None
    {
      var j :| 0 <= j < |ids[1..]| && ids[1..][j] == id;
      assert s.store[ids[0]].position != s.store[ids[j + 1]].position;
    }
  }

  /** The head and the tail copied make the whole sequence copied. */
  lemma CopiedCons(s: BoardState, ids: seq<PieceId>, r: BoardState)
    requires WellFormed(s) && WellFormed(r) && ids != [] && forall id :: id in ids ==> id in s.store
    requires CopiedAt(r, s.store[ids[0]])
    requires forall i :: 0 <= i < |ids[1..]| ==> CopiedAt(r, s.store[ids[1..][i]])
    ensures forall i :: 0 <= i < |ids| ==> CopiedAt(r, s.store[ids[i]])
  {
    forall i | 1 <= i < |ids| ensures CopiedAt(r, s.store[ids[i]]) {
      assert ids[i] == ids[1..][i - 1];
    }
  }

  /** `copy_pieces_to` leaves the target's existing piece objects as they were. */
  lemma {:induction false} CopyPiecesToStore(s: BoardState, ids: seq<PieceId>, t: BoardState)
    requires WellFormed(s) && WellFormed(t)
    requires CopySource(s, ids)
    ensures var r := CopyPiecesTo(s, ids, t);
      forall k :: k in t.store ==> k in r.store && r.store[k] == t.store[k]
    decreases |ids|
  {
    if ids != [] {
      CopySourceTail(s, ids);
      var p := s.store[ids[0]];
      NewPieceFrame(t, p.kind, p.faction, p.position.0, p.position.1, p.moved, "");
      CopyPiecesToStore(s, ids[1..], CopyTo(p, t, ""));
    }
  }

  /** `copy_pieces_to` leaves every cell none of the copied pieces stands on as it was. */
  lemma {:induction false} CopyPiecesToOthers(s: BoardState, ids: seq<PieceId>, t: BoardState)
    requires WellFormed(s) && WellFormed(t) && forall id :: id in ids ==> id in s.store
    ensures var r := CopyPiecesTo(s, ids, t);
      forall a, b :: InBounds((a, b)) && (a, b) !in Positions(s, ids) ==> Get(r, a, b) == Get(t, a, b)
    decreases |ids|
  {
    if ids != [] {
      CopyPiecesToOthers(s, ids[1..], CopyTo(s.store[ids[0]], t, ""));
      PositionsCons(s, ids);
    }
  }

  /** Copying pieces onto empty cells captures nothing. */
  lemma {:induction false} CopyPiecesToCaptures(s: BoardState, ids: seq<PieceId>, t: BoardState)
    requires WellFormed(s) && WellFormed(t) && CopyableOnto(s, ids, t)
    ensures CopyPiecesTo(s, ids, t).captures == t.captures
    decreases |ids|
  {
    if ids != [] {
      var t1 := CopyTo(s.store[ids[0]], t, "");
      CopyToStep(s.store[ids[0]], t);
      CopyableOntoTail(s, ids, t, t1);
      CopyPiecesToCaptures(s, ids[1..], t1);
    }
  }

  /**
   * `copy_pieces_to` of pieces that do not land on one another: each cell a
   * copied piece stands on holds a fresh piece of the same class, faction,
   * position and `moved` flag.
   */
  lemma {:induction false} CopyPiecesToPieces(s: BoardState, ids: seq<PieceId>, t: BoardState)
    requires WellFormed(s) && WellFormed(t) && CopyableOnto(s, ids, t)
    ensures var r := CopyPiecesTo(s, ids, t);
      forall i :: 0 <= i < |ids| ==> CopiedAt(r, s.store[ids[i]])
    decreases |ids|
  {
    if ids != [] {
      CopySourceTail(s, ids);
      var p := s.store[ids[0]];
      var t1 := CopyTo(p, t, "");
      CopyToStep(p, t);
      CopyableOntoTail(s, ids, t, t1);
      CopyPiecesToPieces(s, ids[1..], t1);
      CopyPiecesToStore(s, ids[1..], t1);
      CopyPiecesToOthers(s, ids[1..], t1);
      HeadNotInTail(s, ids);
      CopiedCons(s, ids, CopyPiecesTo(s, ids[1..], t1));
    }
  }

  /** The last of `ids` that is a King of faction `f`, if any: the King whose cell copying leaves cached. */
  function LastKing(s: BoardState, ids: seq<PieceId>, f: Faction): (r: Option<PieceId>)
    ensures r.Some? ==> r.value in ids && KingOf(s, r.value, f)
    ensures r.None? <==> forall id :: id in ids ==> !KingOf(s, id, f)
  {
    if ids == [] then None
    else
      var later := LastKing(s, ids[1..], f);
      if later.Some? then later
      else if KingOf(s, ids[0], f) then Some(ids[0])
      else None
  }

  /** Copying one piece changes the king cache only when that piece is a King. */
  lemma CopyToKings(p: Piece, t: BoardState)
    requires WellFormed(t) && InBounds(p.position) && !Promoting(p)
    ensures CopyTo(p, t, "").kings == (if p.kind == King then t.kings[p.faction := p.position] else t.kings)
  {
    NewPieceFrame(t, p.kind, p.faction, p.position.0, p.position.1, p.moved, "");
  }

  /**
   * The king cache `after` copying `ids` onto a board whose cache was
   * `before`, for faction `f`: the cell of the last copied King of `f`, or
   * the entry of `before` when none of the copied pieces is one.
   */
  predicate KingsAfter(s: BoardState, ids: seq<PieceId>, f: Faction, before: map<Faction, Cell>, after: map<Faction, Cell>) {
    match LastKing(s, ids, f)
    case Some(k) => f in after && after[f] == s.store[k].position
    case None => (f in after <==> f in before) && (f in before ==> after[f] == before[f])
  }

  /** Copying the head of `ids` and then the rest gives the cache `KingsAfter` describes for the whole. */
  lemma KingsAfterCons(s: BoardState, ids: seq<PieceId>, f: Faction, before: map<Faction, Cell>, mid: map<Faction, Cell>, after: map<Faction, Cell>)
    requires ids != [] && ids[0] in s.store
    requires mid == (if s.store[ids[0]].kind == King then before[s.store[ids[0]].faction := s.store[ids[0]].position] else before)
    requires KingsAfter(s, ids[1..], f, mid, after)
    ensures KingsAfter(s, ids, f, before, after)
  {
  }

  /** The king cache after `copy_pieces_to`, faction by faction. */
  lemma {:induction false} CopyPiecesToKings(s: BoardState, ids: seq<PieceId>, t: BoardState, f: Faction)
    requires WellFormed(s) && WellFormed(t) && CopySource(s, ids)
    ensures KingsAfter(s, ids, f, t.kings, CopyPiecesTo(s, ids, t).kings)
    decreases |ids|
  {
    if ids != [] {
      CopySourceTail(s, ids);
      var p := s.store[ids[0]];
      var t1 := CopyTo(p, t, "");
      CopyToKings(p, t);
      CopyPiecesToKings(s, ids[1..], t1, f);
      KingsAfterCons(s, ids, f, t.kings, t1.kings, CopyPiecesTo(s, ids[1..], t1).kings);
    }
  }

  /** On a consistent board the live pieces stand on distinct cells. */
  lemma LivePositionsDistinct(s: BoardState)
    requires Consistent(s)
    ensures forall i, j :: 0 <= i < j < |s.inPlay| ==> s.store[s.inPlay[i]].position != s.store[s.inPlay[j]].position
  {
    forall i, j | 0 <= i < j < |s.inPlay|
      ensures s.store[s.inPlay[i]].position != s.store[s.inPlay[j]].position
    {
      var a, b := s.inPlay[i], s.inPlay[j];
      assert a in s.inPlay && b in s.inPlay && a != b;
      assert Get(s, s.store[a].position.0, s.store[a].position.1) == Some(a);
      assert Get(s, s.store[b].position.0, s.store[b].position.1) == Some(b);
    }
  }

  /**
   * `copy` of a consistent board without a promoting Pawn is a deep copy:
   * each cell a live piece stands on holds, in the copy, a fresh piece of
   * the same class, faction, position and `moved` flag, every other cell is
   * empty, and the copy has recorded no captures.
   */
  lemma CopyPieces(s: BoardState)
    requires Consistent(s) && NoPromotingPawn(s)
    ensures var r := Copy(s);
      && (forall id :: id in s.inPlay ==> CopiedAt(r, s.store[id]))
      && (forall a, b :: InBounds((a, b)) && (a, b) !in Positions(s, s.inPlay) ==> Get(r, a, b) == None)
      && r.captures == map[]
  {
    var t := NewBoard(false);
    LivePositionsDistinct(s);
    assert CopyableOnto(s, s.inPlay, t);
    CopyPiecesToPieces(s, s.inPlay, t);
    CopyPiecesToCaptures(s, s.inPlay, t);
    var r := Copy(s);
    forall id | id in s.inPlay ensures CopiedAt(r, s.store[id]) {
      var i :| 0 <= i < |s.inPlay| && s.inPlay[i] == id;
    }
  }

  /**
   * A king cache built from an empty one by copying `ids`: each cached
   * faction points at one of its copied Kings, every copied King's faction
   * is cached, and a faction with a single copied King points at it.
   */
  lemma KingsFromEmpty(s: BoardState, ids: seq<PieceId>, kings: map<Faction, Cell>)
    requires forall f :: KingsAfter(s, ids, f, map[], kings)
    ensures forall f :: f in kings ==>
      exists id :: id in ids && KingOf(s, id, f) && kings[f] == s.store[id].position
    ensures forall id, f :: id in ids && KingOf(s, id, f) ==> f in kings
    ensures forall id, f ::
      id in ids && KingOf(s, id, f) && (forall z :: z in ids && KingOf(s, z, f) ==> z == id) ==>
      f in kings && kings[f] == s.store[id].position
  {
    forall f | f in kings
      ensures exists id :: id in ids && KingOf(s, id, f) && kings[f] == s.store[id].position
    {
      assert KingsAfter(s, ids, f, map[], kings);
    }
    forall id, f | id in ids && KingOf(s, id, f)
      ensures f in kings
    {
      assert KingsAfter(s, ids, f, map[], kings);
    }
  }

  /**
   * The king cache of `copy`: a faction is cached exactly when it has a
   * live King, always at the cell of one of its live Kings, and at the cell
   * of its only live King when it has just one.
   */
  lemma CopyKings(s: BoardState)
    requires WellFormed(s) && NoPromotingPawn(s)
    ensures var r := Copy(s);
      && (forall f :: f in r.kings ==>
            exists id :: id in s.inPlay && KingOf(s, id, f) && r.kings[f] == s.store[id].position)
      && (forall id, f :: id in s.inPlay && KingOf(s, id, f) ==> f in r.kings)
      && (forall id, f ::
            id in s.inPlay && KingOf(s, id, f) && (forall z :: z in s.inPlay && KingOf(s, z, f) ==> z == id) ==>
            f in r.kings && r.kings[f] == s.store[id].position)
  {
    var t := NewBoard(false);
    var kings := CopyPiecesTo(s, s.inPlay, t).kings;
    forall f ensures KingsAfter(s, s.inPlay, f, map[], kings) {
      CopyPiecesToKings(s, s.inPlay, t, f);
    }
    KingsFromEmpty(s, s.inPlay, kings);
    assert Copy(s).kings == kings;
  }
}

=== FILE: king_invariant.dfy ===
/**
 * The king cache of lib/board.rb: `kings[faction]` is the cell of that
 * faction's King. `place` is the only write to it (lib/board.rb:92-97),
 * so the cache is right as long as every live King is placed through
 * `place` and a faction never has two live Kings. The lemmas below show
 * that the mutation path (`set`, construction, `move`, `proceed`) and
 * `copy` keep it right.
 */
module KingInvariant {
  import opened Pieces
  import opened BoardModel
  import opened BoardProps
  import opened BoardInvariant
  import opened CopyProps

  /**
   * The king cache agrees with the live Kings: each live King's faction is
   * cached at that King's position, and no faction has two live Kings.
   */
  ghost predicate KingsCached(s: BoardState)
    requires WellFormed(s)
  {
    && (forall id, f :: id in s.inPlay && KingOf(s, id, f) ==> f in s.kings && s.kings[f] == s.store[id].position)
    && (forall a, b, f :: a in s.inPlay && b in s.inPlay && KingOf(s, a, f) && KingOf(s, b, f) ==> a == b)
  }

  /** Placing `p` cannot give its faction a second live King. */
  ghost predicate KingFits(s: BoardState, p: Option<PieceId>) {
    p.Some? && p.value in s.store && s.store[p.value].kind == King ==>
      forall id :: id in s.inPlay && KingOf(s, id, s.store[p.value].faction) ==> id == p.value
  }

  /** The cache depends only on the live pieces' class, faction and position. */
  lemma KingsCachedFrame(s: BoardState, r: BoardState)
    requires WellFormed(s) && WellFormed(r) && KingsCached(s) && r.kings == s.kings
    requires forall id :: id in r.inPlay ==> id in s.inPlay
    requires forall id :: id in r.inPlay ==>
      r.store[id].kind == s.store[id].kind && r.store[id].faction == s.store[id].faction &&
      r.store[id].position == s.store[id].position
    ensures KingsCached(r)
  {
    forall id, f | id in r.inPlay && KingOf(r, id, f)
      ensures f in r.kings && r.kings[f] == r.store[id].position
    {
      assert KingOf(s, id, f);
    }
    forall a, b, f | a in r.inPlay && b in r.inPlay && KingOf(r, a, f) && KingOf(r, b, f)
      ensures a == b
    {
      assert KingOf(s, a, f) && KingOf(s, b, f);
    }
  }

  /** `KingFits` survives a step that keeps the piece's class and faction and only drops live pieces. */
  lemma KingFitsFrame(s: BoardState, r: BoardState, p: Option<PieceId>)
    requires WellFormed(s) && KingFits(s, p) && (p.Some? ==> p.value in s.store)
    requires Extends(s, r)
    requires forall id :: id in r.inPlay ==> id in s.inPlay
    ensures KingFits(r, p)
  {
    if p.Some? && r.store[p.value].kind == King {
      var f := r.store[p.value].faction;
      assert SameIdentity(s.store[p.value], r.store[p.value]);
      forall id | id in r.inPlay && KingOf(r, id, f) ensures id == p.value {
        assert id in s.store;
        assert SameIdentity(s.store[id], r.store[id]);
      }
    }
  }

  // ---------------------------------------------------------------------
  // place
  // ---------------------------------------------------------------------

  /** After `place`, every live King is cached at its position. */
  lemma PlaceKingPositions(s: BoardState, p: Option<PieceId>, x: int, y: int)
    requires WellFormed(s) && InBounds((x, y)) && (p.Some? ==> p.value in s.store)
    requires KingsCached(s) && KingFits(s, p)
    ensures var r := Place(s, p, x, y);
      forall id, f :: id in r.inPlay && KingOf(r, id, f) ==> f in r.kings && r.kings[f] == r.store[id].position
  {
    var r := Place(s, p, x, y);
    forall id, f | id in r.inPlay && KingOf(r, id, f)
      ensures f in r.kings && r.kings[f] == r.store[id].position
    {
      if p != Some(id) {
        assert KingOf(s, id, f);
      }
    }
  }

  /** After `place`, no faction has two live Kings. */
  lemma PlaceKingsUnique(s: BoardState, p: Option<PieceId>, x: int, y: int)
    requires WellFormed(s) && InBounds((x, y)) && (p.Some? ==> p.value in s.store)
    requires KingsCached(s) && KingFits(s, p)
    ensures var r := Place(s, p, x, y);
      forall a, b, f :: a in r.inPlay && b in r.inPlay && KingOf(r, a, f) && KingOf(r, b, f) ==> a == b
  {
    var r := Place(s, p, x, y);
    forall a, b, f | a in r.inPlay && b in r.inPlay && KingOf(r, a, f) && KingOf(r, b, f)
      ensures a == b
    {
      if p != Some(a) && p != Some(b) {
        assert KingOf(s, a, f) && KingOf(s, b, f);
      } else if p == Some(a) && p != Some(b) {
        assert KingOf(s, b, f);
      } else if p != Some(a) && p == Some(b) {
        assert KingOf(s, a, f);
      }
    }
  }

  /** `place` keeps the cache when the placed piece cannot be a second King of its faction. */
  lemma PlaceKings(s: BoardState, p: Option<PieceId>, x: int, y: int)
    requires WellFormed(s) && InBounds((x, y)) && (p.Some? ==> p.value in s.store)
    requires KingsCached(s) && KingFits(s, p)
    ensures KingsCached(Place(s, p, x, y))
  {
    PlaceKingPositions(s, p, x, y);
    PlaceKingsUnique(s, p, x, y);
  }

  // ---------------------------------------------------------------------
  // Capture accounting
  // ---------------------------------------------------------------------

  /** `update_captures` keeps the cache, and the piece being set still fits. */
  lemma UpdateCapturesKings(s: BoardState, p: Option<PieceId>, x: int, y: int)
    requires WellFormed(s) && InBounds((x, y)) && (p.Some? ==> p.value in s.store)
    requires KingsCached(s) && KingFits(s, p)
    ensures KingsCached(UpdateCaptures(s, p, x, y)) && KingFits(UpdateCaptures(s, p, x, y), p)
  {
    var r := UpdateCaptures(s, p, x, y);
    if EnPassantQ(s, p, x, y) {
      var c := CaptureCell(s, p);
      var s1 := Capture(s, s.store[p.value].faction, Get(s, c.0, c.1));
      KingsCachedFrame(s, s1);
      PlaceKings(s1, None, c.0, c.1);
    } else {
      KingsCachedFrame(s, r);
    }
    KingFitsFrame(s, r, p);
  }

  // ---------------------------------------------------------------------
  // Castling
  // ---------------------------------------------------------------------

  /**
   * `move_rook` keeps the cache: whatever it lifts is live, so once lifted
   * it is no second King of its faction.
   */
  lemma MoveRookKings(s: BoardState, y: int, rookX1: int, rookX2: int)
    requires Consistent(s) && KingsCached(s) && InBounds((rookX1, y)) && InBounds((rookX2, y))
    ensures KingsCached(MoveRook(s, y, rookX1, rookX2))
  {
    var rook := Get(s, rookX1, y);
    var s1 := Place(s, None, rookX1, y);
    PlaceKings(s, None, rookX1, y);
    if rook.Some? && s1.store[rook.value].kind == King {
      var f := s1.store[rook.value].faction;
      forall id | id in s1.inPlay ensures !KingOf(s1, id, f) {
        if KingOf(s1, id, f) {
          assert KingOf(s, id, f) && KingOf(s, rook.value, f);
        }
      }
    }
    assert KingFits(s1, rook);
    PlaceKings(s1, rook, rookX2, y);
  }

  lemma HandleCastlingKings(s: BoardState, p: Option<PieceId>, x: int, y: int)
    requires Consistent(s) && KingsCached(s) && InBounds((x, y))
    ensures KingsCached(HandleCastling(s, p, x, y))
  {
    if CastlingQ(s, p, x, y) && x == 7 {
      MoveRookKings(s, y, 8, 6);
    } else if CastlingQ(s, p, x, y) && x == 3 {
      MoveRookKings(s, y, 1, 4);
    }
  }

  // ---------------------------------------------------------------------
  // set, promotion and construction, which call each other
  // ---------------------------------------------------------------------

  /** `set` of a piece that is not live, and is no second King of its faction, keeps the cache. */
  lemma {:induction false} SetKings(s: BoardState, p: Option<PieceId>, x: int, y: int, answer: string)
    requires Consistent(s) && InBounds((x, y)) && Placeable(s, p)
    requires KingsCached(s) && KingFits(s, p)
    ensures KingsCached(Set(s, p, x, y, answer))
    decreases SetRank(s, p), 2
  {
    var s1 := UpdateCaptures(s, p, x, y);
    var s2 := Place(s1, p, x, y);
    var s3 := HandlePromotion(s2, p, x, y, answer);
    SetSteps(s, p, x, y, answer);
    UpdateCapturesConsistent(s, p, x, y);
    UpdateCapturesKings(s, p, x, y);
    PlaceConsistent(s1, p, x, y);
    PlaceKings(s1, p, x, y);
    assert SetRank(s2, p) == SetRank(s, p) by {
      if p.Some? { assert SameIdentity(s.store[p.value], s2.store[p.value]); }
    }
    HandlePromotionConsistent(s2, p, x, y, answer);
    HandlePromotionKings(s2, p, x, y, answer);
    HandleCastlingKings(s3, p, x, y);
  }

  /** Promotion never constructs a King. */
  lemma PromotionKindNotKing(selection: Option<string>)
    ensures PromotionKind(selection) != King
  {
  }

  /** `handle_promotion` keeps the cache: the replacement is never a King. */
  lemma {:induction false} HandlePromotionKings(s: BoardState, p: Option<PieceId>, x: int, y: int, answer: string)
    requires Consistent(s) && InBounds((x, y)) && (p.Some? ==> p.value in s.store) && KingsCached(s)
    ensures KingsCached(HandlePromotion(s, p, x, y, answer))
    decreases SetRank(s, p), 1
  {
    if PawnPromotionQ(s, p, x, y) {
      var kind := PromotionKind(ChoosePromotion(s, answer));
      PromotionSteps(s, p, x, y, answer);
      PlaceConsistent(s, None, x, y);
      PlaceKings(s, None, x, y);
      PromotionKindNotPawn(ChoosePromotion(s, answer));
      PromotionKindNotKing(ChoosePromotion(s, answer));
      NewPieceKings(Place(s, None, x, y), kind, s.store[p.value].faction, x, y, false, answer);
    } else {
      NotPromotion(s, p, x, y, answer);
    }
  }

  /** Constructing a piece keeps the cache, unless it is a second King of its faction. */
  lemma {:induction false} NewPieceKings(s: BoardState, kind: Kind, faction: Faction, x: int, y: int, moved: bool, answer: string)
    requires Consistent(s) && InBounds((x, y)) && KingsCached(s)
    requires kind == King ==> forall id :: id in s.inPlay ==> !KingOf(s, id, faction)
    ensures KingsCached(NewPiece(s, kind, faction, x, y, moved, answer).0)
    decreases KindRank(kind), 3
  {
    var s1 := Allocate(s, kind, faction, x, y, moved);
    NewPieceSteps(s, kind, faction, x, y, moved, answer);
    AllocateConsistent(s, kind, faction, x, y, moved);
    KingsCachedFrame(s, s1);
    assert KingFits(s1, Some(s.nextId)) by {
      forall id | id in s1.inPlay ensures s1.store[id] == s.store[id] { }
    }
    assert SetRank(s1, Some(s.nextId)) == KindRank(kind);
    SetKings(s1, Some(s.nextId), x, y, answer);
  }

  // ---------------------------------------------------------------------
  // move and proceed
  // ---------------------------------------------------------------------

  /** `disable_en_passant` changes no class, faction or position. */
  lemma DisableEnPassantKings(s: BoardState)
    requires WellFormed(s) && KingsCached(s)
    ensures KingsCached(DisableEnPassant(s))
  {
    KingsCachedFrame(s, DisableEnPassant(s));
  }

  /**
   * `move` keeps the cache: the lifted piece is live, so it is the only
   * King of its faction if it is one, and is no longer live when it is set
   * on the destination.
   */
  lemma MoveKings(s: BoardState, x1: int, y1: int, x2: int, y2: int, answer: string)
    requires Consistent(s) && KingsCached(s) && InBounds((x1, y1)) && InBounds((x2, y2)) && Get(s, x1, y1).Some?
    ensures KingsCached(Move(s, x1, y1, x2, y2, answer))
  {
    var piece := Get(s, x1, y1).value;
    var s1 := RecordTurn(s, s.store[piece].faction);
    var s2 := Set(s1, None, x1, y1, answer);
    var s3 := Set(s2, Some(piece), x2, y2, answer);
    ConsistentFrame(s, s1);
    KingsCachedFrame(s, s1);
    SetNil(s1, x1, y1, answer);
    PlaceConsistent(s1, None, x1, y1);
    PlaceKings(s1, None, x1, y1);
    assert Placeable(s2, Some(piece));
    assert KingFits(s2, Some(piece)) by {
      if s2.store[piece].kind == King {
        var f := s2.store[piece].faction;
        forall id | id in s2.inPlay ensures !KingOf(s2, id, f) {
          if KingOf(s2, id, f) {
            assert KingOf(s1, id, f) && KingOf(s1, piece, f);
          }
        }
      }
    }
    SetConsistent(s2, Some(piece), x2, y2, answer);
    SetKings(s2, Some(piece), x2, y2, answer);
    DisableEnPassantKings(s3);
    MoveSteps(s, x1, y1, x2, y2, answer);
  }

  /** `proceed` keeps the cache: marking the piece moved changes no class, faction or position. */
  lemma ProceedKings(s: BoardState, id: PieceId, x: int, y: int, answer: string)
    requires Consistent(s) && KingsCached(s) && id in s.inPlay && InBounds((x, y))
    ensures KingsCached(Proceed(s, id, x, y, answer))
  {
    var pos := s.store[id].position;
    var s1 := MarkMoved(s, id);
    forall a, b | InBounds((a, b)) ensures Get(s1, a, b) == Get(s, a, b) { }
    assert Consistent(s1);
    KingsCachedFrame(s, s1);
    MoveKings(s1, pos.0, pos.1, x, y, answer);
  }

  // ---------------------------------------------------------------------
  // copy
  // ---------------------------------------------------------------------

  /** `copy` of a board whose cache is right gives a board whose cache is right. */
  lemma CopyKingsCached(s: BoardState)
    requires Consistent(s) && KingsCached(s) && NoPromotingPawn(s)
    ensures KingsCached(Copy(s))
  {
    var r := Copy(s);
    CopyConsistent(s);
    CopyPieces(s);
    CopyKings(s);
    forall k, f | k in r.inPlay && KingOf(r, k, f)
      ensures f in r.kings && r.kings[f] == r.store[k].position
    {
      var id := CopySourceOf(s, r, k);
      assert KingOf(s, id, f);
    }
    forall a, b, f | a in r.inPlay && b in r.inPlay && KingOf(r, a, f) && KingOf(r, b, f)
      ensures a == b
    {
      var ia := CopySourceOf(s, r, a);
      var ib := CopySourceOf(s, r, b);
      assert KingOf(s, ia, f) && KingOf(s, ib, f);
    }
  }

  /** The live piece of `s` that the live piece `k` of the copy was rebuilt from. */
  lemma CopySourceOf(s: BoardState, r: BoardState, k: PieceId) returns (id: PieceId)
    requires Consistent(s) && Consistent(r) && k in r.inPlay
    requires forall a, b :: InBounds((a, b)) ==> (Get(r, a, b).Some? <==> (a, b) in Positions(s, s.inPlay))
    requires forall z :: z in s.inPlay ==> CopiedAt(r, s.store[z])
    ensures id in s.inPlay && s.store[id].position == r.store[k].position
    ensures r.store[k] == Fresh(s.store[id].kind, s.store[id].faction, s.store[id].position, s.store[id].moved)
  {
    var pos := r.store[k].position;
    assert Get(r, pos.0, pos.1) == Some(k);
    id :| id in s.inPlay && s.store[id].position == pos;
    assert CopiedAt(r, s.store[id]);
  }
}

=== FILE: piece_moves.dfy ===
/**
 * The board-facing operations of the base piece in lib/pieces/piece.rb,
 * run against a live `Boards.Board`: `safe_moves`, `proceed` and `move`.
 * A piece is its id on the board; the cells a variant proposes
 * (`show_legal_moves`) come from a move generator, which for the base
 * piece is every cell of the board.
 */
module PieceMoves {
  import opened Pieces
  import BoardModel
  import BoardProps
  import BoardInvariant
  import Boards

  /** The entries of `cands` whose verdict is true, in order. */
  ghost function Kept(cands: seq<Cell>, verdicts: seq<bool>): seq<Cell>
    requires |verdicts| == |cands|
    decreases |cands|
  {
    if cands == [] then [] else (if verdicts[0] then [cands[0]] else []) + Kept(cands[1..], verdicts[1..])
  }

  /** Extending the candidates by one cell extends the kept cells by that cell when its verdict is true. */
  lemma {:induction false} KeptSnoc(cands: seq<Cell>, verdicts: seq<bool>, c: Cell, v: bool)
    requires |verdicts| == |cands|
    ensures Kept(cands + [c], verdicts + [v]) == Kept(cands, verdicts) + (if v then [c] else [])
    decreases |cands|
  {
    if cands != [] {
      assert (cands + [c])[1..] == cands[1..] + [c];
      assert (verdicts + [v])[1..] == verdicts[1..] + [v];
      KeptSnoc(cands[1..], verdicts[1..], c, v);
    }
  }

  /** Keeping by recorded verdicts is `select` when each verdict is the block's answer. */
  lemma {:induction false} KeptIsSelect(cands: seq<Cell>, verdicts: seq<bool>, keep: Cell -> bool)
    requires |verdicts| == |cands| && forall j :: 0 <= j < |cands| ==> verdicts[j] == keep(cands[j])
    ensures Kept(cands, verdicts) == BoardModel.Select(cands, keep)
    decreases |cands|
  {
    if cands != [] {
      KeptIsSelect(cands[1..], verdicts[1..], keep);
    }
  }

  /** One step of the `safe_moves` loop: record the verdict on the next cell and keep the cell when it passes. */
  lemma VerdictStep(s: BoardModel.BoardState, id: PieceId, gen: BoardModel.Generator, legalMoves: seq<Cell>, i: nat,
                    verdicts: seq<bool>, ok: bool, safe: seq<Cell>)
    requires BoardModel.WellFormed(s) && id in s.inPlay
    requires i < |legalMoves| && |verdicts| == i && ok == BoardModel.SafeCell(s, id, gen, legalMoves[i])
    requires forall j :: 0 <= j < i ==> verdicts[j] == BoardModel.SafeCell(s, id, gen, legalMoves[j])
    requires safe == Kept(legalMoves[..i], verdicts)
    ensures forall j :: 0 <= j < i + 1 ==> (verdicts + [ok])[j] == BoardModel.SafeCell(s, id, gen, legalMoves[j])
    ensures (if ok then safe + [legalMoves[i]] else safe) == Kept(legalMoves[..i + 1], verdicts + [ok])
  {
    forall j | 0 <= j < i + 1
      ensures (verdicts + [ok])[j] == BoardModel.SafeCell(s, id, gen, legalMoves[j])
    {
      if j < i {
        assert (verdicts + [ok])[j] == verdicts[j];
      }
    }
    KeptSnoc(legalMoves[..i], verdicts, legalMoves[i], ok);
    assert legalMoves[..i + 1] == legalMoves[..i] + [legalMoves[i]];
  }

  /**
   * `safe_moves`: keep, in order, the cached legal moves whose simulated
   * move leaves the mover out of check. `legalMoves` is the cache that
   * `show_legal_moves` fills.
   */
  method SafeMoves(board: Boards.Board, id: PieceId, legalMoves: seq<Cell>, gen: BoardModel.Generator)
    returns (safe: seq<Cell>)
    requires board.Valid() && id in board.inPlay && forall c :: c in legalMoves ==> InBounds(c)
    ensures safe == BoardModel.Select(legalMoves, BoardModel.SafeTest(board.State(), id, gen))
  {
    ghost var s := board.State();
    safe := [];
    ghost var verdicts: seq<bool> := [];
    var i := 0;
    while i < |legalMoves|
      invariant 0 <= i <= |legalMoves| && |verdicts| == i
      invariant board.State() == s
      invariant forall j :: 0 <= j < i ==> verdicts[j] == BoardModel.SafeCell(s, id, gen, legalMoves[j])
      invariant safe == Kept(legalMoves[..i], verdicts)
    {
      var move := legalMoves[i];
      var ok := board.SimulateMove(id, move.0, move.1, gen);
      VerdictStep(s, id, gen, legalMoves, i, verdicts, ok, safe);
      verdicts := verdicts + [ok];
      if ok {
        safe := safe + [move];
      }
      i := i + 1;
    }
    assert legalMoves[..i] == legalMoves;
    KeptIsSelect(legalMoves, verdicts, BoardModel.SafeTest(s, id, gen));
  }

  /** `proceed(x, y)`: mark the piece moved, then move it on the board from its own cell. */
  method Proceed(board: Boards.Board, id: PieceId, x: int, y: int, answer: string)
    requires board.Valid() && BoardModel.Consistent(board.State()) && id in board.inPlay && InBounds((x, y))
    modifies board, board.grid
    ensures board.grid == old(board.grid)
    ensures board.State() == BoardModel.Proceed(old(board.State()), id, x, y, answer)
    ensures board.Valid()
  {
    ghost var s0 := board.State();
    var pos := board.store[id].position;
    board.store := board.store[id := board.store[id].(moved := true)];
    assert board.State() == BoardModel.MarkMoved(s0, id);
    assert BoardModel.Get(board.State(), pos.0, pos.1) == Some(id);
    board.Move(pos.0, pos.1, x, y, answer);
  }

  /**
   * `move(x, y)`: refuse a cell the piece does not propose or whose move
   * would leave its faction in check; otherwise proceed and report success.
   */
  method Move(board: Boards.Board, id: PieceId, x: int, y: int, gen: BoardModel.Generator, answer: string)
    returns (moved: bool)
    requires board.Valid() && BoardModel.Consistent(board.State()) && id in board.inPlay
    requires BoardModel.ValidGenerator(gen)
    modifies board, board.grid
    ensures board.grid == old(board.grid)
    ensures moved <==> (x, y) in gen(old(board.State()), id) && (x, y) in BoardModel.SafeMoves(old(board.State()), id, gen)
    ensures !moved ==> board.State() == old(board.State())
    ensures moved ==> InBounds((x, y)) && board.State() == BoardModel.Proceed(old(board.State()), id, x, y, answer)
    ensures board.Valid() && BoardModel.Consistent(board.State())
  {
    ghost var s0 := board.State();
    var legalMoves := gen(board.State(), id);
    if (x, y) !in legalMoves {
      return false;
    }
    var safe := SafeMoves(board, id, legalMoves, gen);
    if (x, y) !in safe {
      return false;
    }
    BoardInvariant.ProceedConsistent(s0, id, x, y, answer);
    Proceed(board, id, x, y, answer);
    moved := true;
  }
}

=== FILE: pieces.dfy ===
/**
 * The piece entity of lib/pieces/piece.rb: identity, faction, the `moved`
 * flag and the variant fields the board reads, plus the base candidate-move
 * generator `find_legal_moves`, which offers every cell of the board.
 */
module Pieces {

  datatype Option<T> = None | Some(value: T)

  /** The two opposing sides. */
  datatype Faction = White | Black

  /** The piece classes the board tests for with `piece.class == ...`. */
  datatype Kind = Pawn | Knight | Bishop | Rook | Queen | King

  /** A cell `[x, y]`: x is the file (1 = A .. 8 = H), y the rank. */
  type Cell = (int, int)

  /** Stands for the identity of a Ruby piece object on one board. */
  type PieceId = nat

  /**
   * The fields of a piece object. `enPassantCell`, `enPassantCaptureCell`
   * (Pawn) and `castlingCells` (King) are the variant fields the board reads;
   * for the other kinds they stay empty.
   */
  datatype Piece = Piece(
    kind: Kind,
    faction: Faction,
    position: Cell,
    moved: bool,
    enPassantCell: Option<Cell>,
    enPassantCaptureCell: Option<Cell>,
    castlingCells: seq<Cell>)

  predicate InBounds(c: Cell) {
    1 <= c.0 <= 8 && 1 <= c.1 <= 8
  }

  /** A newly constructed piece: no en-passant target and no castling cells. */
  function Fresh(kind: Kind, faction: Faction, position: Cell, moved: bool): Piece {
    Piece(kind, faction, position, moved, None, None, [])
  }

  /** Lexicographic order on cells, the order of `repeated_permutation(2)`. */
  predicate LexLess(a: Cell, b: Cell) {
    a.0 < b.0 || (a.0 == b.0 && a.1 < b.1)
  }

  /** The list the base `find_legal_moves` builds: [1,1], [1,2], .., [8,8]. */
  function AllCells(): (cells: seq<Cell>)
    ensures |cells| == 64
  {
    seq(64, i requires 0 <= i < 64 => (i / 8 + 1, i % 8 + 1))
  }

  /** Every entry of AllCells is a cell of the board, and every cell is there. */
  lemma AllCellsExactlyTheBoard(c: Cell)
    ensures c in AllCells() <==> InBounds(c)
  {
    if InBounds(c) {
      var i := (c.0 - 1) * 8 + (c.1 - 1);
      assert 0 <= i < 64;
      assert i / 8 == c.0 - 1 && i % 8 == c.1 - 1;
      assert AllCells()[i] == c;
    }
  }

  /** AllCells is strictly increasing in lexicographic order. */
  lemma AllCellsSorted(i: int, j: int)
    requires 0 <= i < j < 64
    ensures LexLess(AllCells()[i], AllCells()[j])
  {
    assert i / 8 <= j / 8;
    if i / 8 == j / 8 {
      assert i % 8 < j % 8;
    }
  }

  /** Strict order implies that no cell occurs twice. */
  lemma AllCellsDistinct(i: int, j: int)
    requires 0 <= i < 64 && 0 <= j < 64 && i != j
    ensures AllCells()[i] != AllCells()[j]
  {
    if i < j { AllCellsSorted(i, j); } else { AllCellsSorted(j, i); }
  }

  /**
   * The base `find_legal_moves`: resets the list and appends every pair of
   * [1..8] x [1..8] in the order `repeated_permutation(2)` yields them.
   */
  method FindLegalMoves() returns (legalMoves: seq<Cell>)
    ensures legalMoves == AllCells()
  {
    legalMoves := [];
    for x := 1 to 9
      invariant legalMoves == AllCells()[..(x - 1) * 8]
    {
      for y := 1 to 9
        invariant legalMoves == AllCells()[..(x - 1) * 8 + (y - 1)]
      {
        ghost var k := (x - 1) * 8 + (y - 1);
        assert k / 8 == x - 1 && k % 8 == y - 1;
        assert AllCells()[..k + 1] == AllCells()[..k] + [(x, y)];
        legalMoves := legalMoves + [(x, y)];
      }
    }
    assert AllCells()[..64] == AllCells();
  }
}

=== FILE: query_props.dfy ===
/**
 * Properties of the board's queries (lib/board.rb) and of the piece
 * queries that use them (lib/pieces/piece.rb): check detection, safety
 * filtering, the no-moves family, the dead-position heuristics and the
 * cell queries.
 */
module QueryProps {
  import opened Pieces
  import opened BoardModel
  import opened BoardProps

  // ---------------------------------------------------------------------
  // checked?
  // ---------------------------------------------------------------------

  /** The union of candidates contains exactly the cells some listed piece offers. */
  lemma {:induction false} MovesOfIff(s: BoardState, ids: seq<PieceId>, gen: Generator, c: Cell)
    ensures c in MovesOf(s, ids, gen) <==> exists i :: 0 <= i < |ids| && c in gen(s, ids[i])
    decreases |ids|
  {
    if ids != [] {
      MovesOfIff(s, ids[1..], gen, c);
      if c in MovesOf(s, ids[1..], gen) {
        var i :| 0 <= i < |ids[1..]| && c in gen(s, ids[1..][i]);
        assert c in gen(s, ids[i + 1]);
      }
      if exists i :: 0 <= i < |ids| && c in gen(s, ids[i]) {
        var i :| 0 <= i < |ids| && c in gen(s, ids[i]);
        if i > 0 {
          assert ids[1..][i - 1] == ids[i];
        }
      }
    }
  }

  /**
   * A faction is in check exactly when its king cell is cached and some live
   * piece of the other faction offers that cell among its raw candidates.
   */
  lemma CheckedIff(s: BoardState, f: Faction, gen: Generator)
    requires WellFormed(s)
    ensures Checked(s, f, gen) <==>
      f in s.kings && exists id :: id in s.inPlay && s.store[id].faction != f && s.kings[f] in gen(s, id)
  {
    var enemies := Enemies(s, f);
    if f in s.kings {
      var k := s.kings[f];
      MovesOfIff(s, enemies, gen, k);
      if k in EnemyMoves(s, f, gen) {
        var i :| 0 <= i < |enemies| && k in gen(s, enemies[i]);
        assert enemies[i] in enemies;
      }
      if exists id :: id in s.inPlay && s.store[id].faction != f && k in gen(s, id) {
        var id :| id in s.inPlay && s.store[id].faction != f && k in gen(s, id);
        assert id in enemies;
        var i :| 0 <= i < |enemies| && enemies[i] == id;
      }
    }
  }

  /**
   * With the base generator every cell is a candidate, so a faction is in
   * check exactly when its king cell is cached, on the board, and some live
   * enemy exists.
   */
  lemma BaseGeneratorChecked(s: BoardState, f: Faction)
    requires WellFormed(s)
    ensures Checked(s, f, BaseGenerator()) <==>
      f in s.kings && InBounds(s.kings[f]) && exists id :: id in s.inPlay && s.store[id].faction != f
  {
    CheckedIff(s, f, BaseGenerator());
    if f in s.kings {
      AllCellsExactlyTheBoard(s.kings[f]);
    }
  }

  // ---------------------------------------------------------------------
  // Safety filtering
  // ---------------------------------------------------------------------

  /** `xs` is `ys` with some entries left out, the rest in their order. */
  predicate IsSublist<T(==)>(xs: seq<T>, ys: seq<T>)
    decreases |ys|
  {
    if xs == [] then true
    else if ys == [] then false
    else (xs[0] == ys[0] && IsSublist(xs[1..], ys[1..])) || IsSublist(xs, ys[1..])
  }

  /**
   * `select` keeps the entries that satisfy the block, in their original
   * order, and no others.
   */
  lemma {:induction false} SelectSpec(cands: seq<Cell>, keep: Cell -> bool)
    ensures IsSublist(Select(cands, keep), cands)
    ensures forall c :: c in Select(cands, keep) <==> c in cands && keep(c)
    decreases |cands|
  {
    if cands != [] {
      var rest := Select(cands[1..], keep);
      SelectSpec(cands[1..], keep);
      if keep(cands[0]) {
        assert Select(cands, keep) == [cands[0]] + rest;
        assert ([cands[0]] + rest)[1..] == rest;
      } else {
        assert Select(cands, keep) == rest;
        SublistOfTail(rest, cands);
      }
    }
  }

  /** `select` keeps every copy of an accepted cell and no copy of a rejected one. */
  lemma {:induction false} SelectCount(cands: seq<Cell>, keep: Cell -> bool, c: Cell)
    ensures multiset(Select(cands, keep))[c] == if keep(c) then multiset(cands)[c] else 0
    decreases |cands|
  {
    if cands != [] {
      SelectCount(cands[1..], keep, c);
      assert cands == [cands[0]] + cands[1..];
    }
  }

  /** A sub-list of the tail is a sub-list of the whole. */
  lemma SublistOfTail<T>(xs: seq<T>, ys: seq<T>)
    requires ys != [] && IsSublist(xs, ys[1..])
    ensures IsSublist(xs, ys)
  {
  }

  /** `safe_moves` is exactly the order-preserving selection of the candidates that pass `simulate_move`. */
  lemma SafeMovesSpec(s: BoardState, id: PieceId, gen: Generator)
    requires WellFormed(s) && id in s.inPlay && ValidGenerator(gen)
    ensures IsSublist(SafeMoves(s, id, gen), gen(s, id))
    ensures forall c :: c in SafeMoves(s, id, gen) <==> c in gen(s, id) && SimulateMove(s, id, c.0, c.1, gen)
  {
    SelectSpec(gen(s, id), SafeTest(s, id, gen));
  }

  /**
   * A castling move is judged safe exactly when the king is not in check now
   * and neither the passed-over cell nor the destination leaves it in check;
   * so castling out of check is never safe.
   */
  lemma CastlingSafety(s: BoardState, id: PieceId, x: int, y: int, gen: Generator)
    requires WellFormed(s) && id in s.inPlay && InBounds((x, y)) && CastlingQ(s, Some(id), x, y)
    ensures var middle := if x == 7 then 6 else 4;
      SimulateMove(s, id, x, y, gen) <==>
        !Checked(s, s.store[id].faction, gen) && Simulation(s, id, middle, y, gen) && Simulation(s, id, x, y, gen)
    ensures Checked(s, s.store[id].faction, gen) ==> !SimulateMove(s, id, x, y, gen)
  {
  }

  // ---------------------------------------------------------------------
  // no_moves?, available_moves, checkmate?, stalemate?
  // ---------------------------------------------------------------------

  /**
   * The fold of `available_moves`: a cell is a key of the result exactly
   * when it was a key before or some listed piece with a non-empty list
   * stands there, and each new entry is the list of a piece standing on
   * that cell.
   */
  lemma {:induction false} AvailableFromSpec(ids: seq<PieceId>, position: PieceId -> Cell, safe: PieceId -> seq<Cell>,
                                             acc: map<Cell, seq<Cell>>)
    ensures var r := AvailableFrom(ids, position, safe, acc);
      forall c :: c in r <==> c in acc || exists i :: 0 <= i < |ids| && safe(ids[i]) != [] && position(ids[i]) == c
    ensures var r := AvailableFrom(ids, position, safe, acc);
      forall c :: c in r ==>
        (c in acc && r[c] == acc[c]) || exists i :: 0 <= i < |ids| && position(ids[i]) == c && r[c] == safe(ids[i]) != []
    decreases |ids|
  {
    if ids != [] {
      var moves := safe(ids[0]);
      var acc' := if moves == [] then acc else acc[position(ids[0]) := moves];
      var r := AvailableFrom(ids, position, safe, acc);
      AvailableFromSpec(ids[1..], position, safe, acc');
      assert r == AvailableFrom(ids[1..], position, safe, acc');
      forall c
        ensures c in r <==> c in acc || exists i :: 0 <= i < |ids| && safe(ids[i]) != [] && position(ids[i]) == c
      {
        if exists i :: 0 <= i < |ids[1..]| && safe(ids[1..][i]) != [] && position(ids[1..][i]) == c {
          var i :| 0 <= i < |ids[1..]| && safe(ids[1..][i]) != [] && position(ids[1..][i]) == c;
          assert ids[1..][i] == ids[i + 1];
        }
        if exists i :: 0 <= i < |ids| && safe(ids[i]) != [] && position(ids[i]) == c {
          var i :| 0 <= i < |ids| && safe(ids[i]) != [] && position(ids[i]) == c;
          if i > 0 { assert ids[1..][i - 1] == ids[i]; }
        }
        if c in acc' && c !in acc {
          assert safe(ids[0]) != [] && position(ids[0]) == c;
        }
      }
      forall c | c in r
        ensures (c in acc && r[c] == acc[c]) ||
          exists i :: 0 <= i < |ids| && position(ids[i]) == c && r[c] == safe(ids[i]) != []
      {
        if exists i :: 0 <= i < |ids[1..]| && position(ids[1..][i]) == c && r[c] == safe(ids[1..][i]) != [] {
          var i :| 0 <= i < |ids[1..]| && position(ids[1..][i]) == c && r[c] == safe(ids[1..][i]) != [];
          assert ids[1..][i] == ids[i + 1];
        } else if moves != [] && c == position(ids[0]) {
          assert r[c] == moves;
        }
      }
    }
  }

  /**
   * Every entry of `available_moves` is the non-empty safe-move list of a
   * friendly live piece standing on that cell, and every friendly piece
   * with a safe move has its position among the keys.
   */
  lemma AvailableMovesSpec(s: BoardState, f: Faction, gen: Generator)
    requires WellFormed(s) && ValidGenerator(gen)
    ensures var r := AvailableMoves(s, f, gen);
      forall c :: c in r ==>
        exists id :: (id in s.inPlay && s.store[id].faction == f && s.store[id].position == c &&
                      r[c] == SafeMoves(s, id, gen) != [])
    ensures var r := AvailableMoves(s, f, gen);
      forall id :: id in s.inPlay && s.store[id].faction == f && SafeMoves(s, id, gen) != [] ==> s.store[id].position in r
  {
    var friends := Friendlies(s, f);
    var r := AvailableMoves(s, f, gen);
    AvailableFromSpec(friends, PositionIn(s), SafeMovesIn(s, gen), map[]);
    forall c | c in r
      ensures exists id :: (id in s.inPlay && s.store[id].faction == f && s.store[id].position == c &&
                            r[c] == SafeMoves(s, id, gen) != [])
    {
      var i :| 0 <= i < |friends| && PositionIn(s)(friends[i]) == c && r[c] == SafeMovesIn(s, gen)(friends[i]) != [];
      assert friends[i] in friends;
    }
    forall id | id in s.inPlay && s.store[id].faction == f && SafeMoves(s, id, gen) != []
      ensures s.store[id].position in r
    {
      assert id in friends;
      var i :| 0 <= i < |friends| && friends[i] == id;
      assert SafeMovesIn(s, gen)(friends[i]) != [] && PositionIn(s)(friends[i]) == s.store[id].position;
    }
  }

  /** `no_moves?` holds exactly when `available_moves` is empty. */
  lemma NoMovesIffNothingAvailable(s: BoardState, f: Faction, gen: Generator)
    requires WellFormed(s) && ValidGenerator(gen)
    ensures NoMoves(s, f, gen) <==> AvailableMoves(s, f, gen) == map[]
  {
    var friends := Friendlies(s, f);
    var r := AvailableMoves(s, f, gen);
    AvailableMovesSpec(s, f, gen);
    if !NoMoves(s, f, gen) {
      var i :| 0 <= i < |friends| && SafeMoves(s, friends[i], gen) != [];
      assert friends[i] in friends;
      assert s.store[friends[i]].position in r;
    }
    if r != map[] {
      var c :| c in r;
      var id :| id in s.inPlay && s.store[id].faction == f && s.store[id].position == c && r[c] == SafeMoves(s, id, gen) != [];
      assert id in friends;
      var i :| 0 <= i < |friends| && friends[i] == id;
    }
  }

  /** `checkmate?` and `stalemate?` are never both true, and one of them holds exactly when `no_moves?` does. */
  lemma CheckmateStalemateExclusive(s: BoardState, f: Faction, gen: Generator)
    requires WellFormed(s) && ValidGenerator(gen)
    ensures !(Checkmate(s, f, gen) && Stalemate(s, f, gen))
    ensures Checkmate(s, f, gen) || Stalemate(s, f, gen) <==> NoMoves(s, f, gen)
  {
  }

  // ---------------------------------------------------------------------
  // Dead position
  // ---------------------------------------------------------------------

  /** Once the running square is true it stays true, so every later colour must be true. */
  lemma {:induction false} SameColourFromTrue(cs: seq<bool>)
    ensures SameColourFrom(cs, Some(true)) <==> forall i :: 0 <= i < |cs| ==> cs[i]
    decreases |cs|
  {
    if cs != [] {
      SameColourFromTrue(cs[1..]);
      assert forall i :: 1 <= i < |cs| ==> cs[i] == cs[1..][i - 1];
    }
  }

  /**
   * The `||=` fold accepts a colour list, from a nil or false start, exactly
   * when no false colour follows a true one.
   */
  lemma {:induction false} SameColourFromIff(cs: seq<bool>, square: Option<bool>)
    requires square != Some(true)
    ensures SameColourFrom(cs, square) <==> forall i, j :: 0 <= i < j < |cs| && cs[i] ==> cs[j]
    decreases |cs|
  {
    if cs != [] {
      assert forall i :: 1 <= i < |cs| ==> cs[i] == cs[1..][i - 1];
      if cs[0] {
        SameColourFromTrue(cs[1..]);
      } else {
        SameColourFromIff(cs[1..], Some(false));
      }
    }
  }

  /** Bishops all on one square colour make the fold accept. */
  lemma SameColourSufficient(cs: seq<bool>)
    requires forall i, j :: 0 <= i < |cs| && 0 <= j < |cs| ==> cs[i] == cs[j]
    ensures SameColourFrom(cs, None)
  {
    SameColourFromIff(cs, None);
  }

  /**
   * The converse fails: a bishop on an odd square followed by one on an even
   * square is accepted, because `||=` replaces the false square by true.
   */
  lemma SameColourQuirk()
    ensures SameColourFrom([false, true], None)
    ensures SameColourFrom([true, true], None) && !SameColourFrom([true, false], None)
  {
  }

  /** The colours of the bishops among `ids`, in order, are one per bishop. */
  lemma {:induction false} BishopColoursMembers(s: BoardState, ids: seq<PieceId>, b: bool)
    requires forall id :: id in ids ==> id in s.store
    ensures b in BishopColours(s, ids) <==>
      exists id :: id in ids && s.store[id].kind == Bishop && EvenSquare(s.store[id].position) == b
    decreases |ids|
  {
    if ids != [] {
      BishopColoursMembers(s, ids[1..], b);
      if exists id :: id in ids && s.store[id].kind == Bishop && EvenSquare(s.store[id].position) == b {
        var id :| id in ids && s.store[id].kind == Bishop && EvenSquare(s.store[id].position) == b;
        if id != ids[0] { assert id in ids[1..]; }
      }
    }
  }

  /**
   * When every live bishop stands on the same square colour,
   * `all_bishops_on_same_square_color?` holds.
   */
  lemma AllBishopsSameColourSufficient(s: BoardState)
    requires WellFormed(s)
    requires forall a, b :: a in s.inPlay && b in s.inPlay && s.store[a].kind == Bishop && s.store[b].kind == Bishop ==>
      EvenSquare(s.store[a].position) == EvenSquare(s.store[b].position)
    ensures AllBishopsOnSameSquareColour(s)
  {
    var cs := BishopColours(s, s.inPlay);
    forall i, j | 0 <= i < |cs| && 0 <= j < |cs| ensures cs[i] == cs[j] {
      BishopColoursMembers(s, s.inPlay, cs[i]);
      BishopColoursMembers(s, s.inPlay, cs[j]);
    }
    SameColourSufficient(cs);
  }

  /**
   * `dead_position?` holds exactly when at most three pieces are left, all
   * kings, bishops or knights; or when only kings and bishops are left and
   * no bishop on an odd-sum square follows one on an even-sum square in
   * iteration order. With x the file and y the rank, an even sum is a dark
   * square (a1 is dark), so a light bishop may precede a dark one but not
   * follow it.
   */
  lemma DeadPositionIff(s: BoardState)
    requires WellFormed(s)
    ensures DeadPosition(s) <==>
      || (|s.inPlay| <= 3 && forall id :: id in s.inPlay ==> s.store[id].kind in {King, Bishop, Knight})
      || ((forall id :: id in s.inPlay ==> s.store[id].kind in {King, Bishop}) &&
          var cs := BishopColours(s, s.inPlay);
          forall i, j :: 0 <= i < j < |cs| && cs[i] ==> cs[j])
  {
    SameColourFromIff(BishopColours(s, s.inPlay), None);
    assert KingVsKingAndBishopOrKnight(s) <==>
      |s.inPlay| <= 3 && forall id :: id in s.inPlay ==> s.store[id].kind in {King, Bishop, Knight};
    assert AllKingsAndBishops(s) <==> forall id :: id in s.inPlay ==> s.store[id].kind in {King, Bishop};
  }

  // ---------------------------------------------------------------------
  // Cell queries
  // ---------------------------------------------------------------------

  /** On an empty cell neither query holds; on an occupied one exactly one does. */
  lemma FriendlyEnemyExclusive(s: BoardState, id: PieceId, x: int, y: int)
    requires WellFormed(s) && id in s.store && InBounds((x, y))
    ensures Get(s, x, y).None? ==> !Friendly(s, id, x, y) && !Enemy(s, id, x, y)
    ensures Get(s, x, y).Some? ==> Friendly(s, id, x, y) != Enemy(s, id, x, y)
  {
  }

  /** On a consistent board, `occupied_cells` lists exactly the occupied cells. */
  lemma OccupiedCellsExact(s: BoardState, c: Cell)
    requires Consistent(s)
    ensures c in OccupiedCells(s) <==> InBounds(c) && Get(s, c.0, c.1).Some?
  {
    var cells := OccupiedCells(s);
    if c in cells {
      var i :| 0 <= i < |cells| && cells[i] == c;
      assert s.inPlay[i] in s.inPlay;
    }
    if InBounds(c) && Get(s, c.0, c.1).Some? {
      var id := Get(s, c.0, c.1).value;
      var i :| 0 <= i < |s.inPlay| && s.inPlay[i] == id;
      assert cells[i] == c;
    }
  }

  // ---------------------------------------------------------------------
  // copy_to and proceed
  // ---------------------------------------------------------------------

  /**
   * `copy_to` constructs on the target a piece of the same class, faction,
   * position and `moved` flag (unless it is a Pawn on rank 1 or 8, which
   * promotes at once), standing on that position.
   */
  lemma CopyToEffect(p: Piece, target: BoardState, answer: string)
    requires WellFormed(target) && InBounds(p.position) && !(p.kind == Pawn && (p.position.1 == 1 || p.position.1 == 8))
    ensures var r := CopyTo(p, target, answer);
      && Get(r, p.position.0, p.position.1) == Some(target.nextId)
      && r.store[target.nextId] == Fresh(p.kind, p.faction, p.position, p.moved)
  {
    NewPieceEffect(target, p.kind, p.faction, p.position.0, p.position.1, p.moved, answer);
  }

  /** After `proceed` the piece is marked as moved, whatever the move did. */
  lemma ProceedMarksMoved(s: BoardState, id: PieceId, x: int, y: int, answer: string)
    requires Consistent(s) && id in s.inPlay && InBounds((x, y))
    ensures var r := Proceed(s, id, x, y, answer);
      id in r.store && r.store[id].moved
  {
    var s1 := MarkMoved(s, id);
    assert SameIdentity(s1.store[id], Proceed(s, id, x, y, answer).store[id]);
  }
}
